=== FILE: README.md ===
# ImageSuite cache core in Dafny

ImageSuite is an iOS library that downloads images and keeps them in a disk cache. This project
models its decision logic as pure Dafny functions and proves properties of them:

- **Cache keys.** `loadImage` trims the caller's string. It puts the base address in front when
  the untrimmed string is not a "complete URL". It then maps the resource name to a file name in
  one of two ways:
  - the last path component, when the lower-cased name contains the base address;
  - otherwise a sanitised form of the whole name.
- **The complete-URL grammar.** This is the regular expression in `ImageManagerConstants.urlRegex`,
  matched against the whole string. It is modelled twice: once following the expression's
  structure and once as a flat character-class test. A lemma proves the two agree.
- **Cache state.** The cache root directory is a map from file name to (bytes, creation time).
  The model covers the atomic save, clearing the whole cache, and the age-based sweep run at
  start-up. The sweep exists as a whole-map function and as a loop over the directory listing,
  and the two are proved to agree.
- **`loadImage` orchestration.** This is a function of (manager, cache, string, download
  outcome, time, write result). It returns the new cache, what the completion handler received
  (never called, called with nil, or called with a path), and whether a request was sent.

Modules:

| module | file | contents |
|---|---|---|
| `Wrappers` | `wrappers.dfy` | `Option` |
| `Text` | `text.dfy` | Foundation string operations in ASCII: trimming, lower-casing, `range(of:)`, `replacingOccurrences` |
| `UrlGrammar` | `url_grammar.dfy` | `isCompleteURL` |
| `Utilities` | `utilities.dfy` | the `String` path and key helpers |
| `Constants` | `constants.dfy` | `cacheRootName`, `defaultCacheExpiryTime` |
| `FileOperations` | `file_operations.dfy` | save, clear, expiry value, sweep |
| `ImageManager` | `image_manager.dfy` | key derivation, cache paths, `loadImage`, `clearCache`, start-up |

Behaviours of the Swift code that the model keeps as they are:

- A failure to create the directory is ignored, and the write alone decides whether a save
  succeeds (ImageSuite_Source/Util/FileOperations.swift:38-50).
- Sanitised keys can collide: `a.png` and `apng` share a key, and so do `a/b` and `a_b`
  (ImageSuite_Source/Util/Utilities.swift:44). `ImageManager.SharedKeyServesOtherImage` shows
  that the second name is then served the first one's bytes.
- Several failure paths never call the completion. These are a request that cannot be built, a
  download without data or without a callback, and a missing cache directory
  (ImageSuite_Source/ImageManager/ImageManager.swift:68-79).
- The key is the last path component whenever the lower-cased name contains the base address
  (ImageSuite_Source/ImageManager/ImageManager.swift:142). So a complete URL that contains the
  base address is keyed the same way as a relative name.

## Model

| member | source | states |
|---|---|---|
| Text.Trim | ImageSuite_Source/ImageManager/ImageManager.swift:98 | `trimmingCharacters(in: .whitespacesAndNewlines)`. The input splits into an all-whitespace prefix, the result and an all-whitespace suffix, and the result neither starts nor ends with whitespace. |
| Text.TrimUnique | ImageSuite_Source/ImageManager/ImageManager.swift:98 | Any trimmed core wrapped in whitespace trims to exactly that core, so trimming is fully determined. |
| Text.TrimIdempotent | ImageSuite_Source/ImageManager/ImageManager.swift:98 | Trimming twice equals trimming once. |
| Text.Lower | ImageSuite_Source/Util/Utilities.swift:52 | `lowercased()`: same length, no upper-case letter left, other characters kept, and upper-case letters mapped to their lower-case form. |
| Text.LowerAppend | ImageSuite_Source/Util/Utilities.swift:52 | Lower-casing distributes over concatenation. |
| Text.FindFrom | ImageSuite_Source/Util/Utilities.swift:52 | Returns the first occurrence at or after a position, or reports that there is none after it. |
| Text.RangeOf | ImageSuite_Source/Util/Utilities.swift:52 | `range(of:)` finds the needle iff the needle is non-empty and occurs somewhere. What it returns is an occurrence, and no earlier occurrence exists. |
| Text.ReplacingOccurrences | ImageSuite_Source/Util/Utilities.swift:44 | An empty target changes nothing, and a replacement no longer than the target never lengthens the string. |
| Text.ReplaceWithoutTargetHead | ImageSuite_Source/Util/Utilities.swift:44 | A string in which the target cannot start is returned unchanged. |
| Text.ReplaceCharsFrom | ImageSuite_Source/Util/Utilities.swift:44 | Every character of the result comes from the input or from the replacement. |
| Text.ReplaceRemovesChar | ImageSuite_Source/Util/Utilities.swift:44 | Replacing one character by text that does not contain it leaves no occurrence of that character. |
| Text.ReplaceCharAppend | ImageSuite_Source/Util/Utilities.swift:44 | Replacing a single character distributes over concatenation. |
| Text.ReplaceAfterTargetFreePrefix | ImageSuite_Source/Util/Utilities.swift:44 | A prefix that does not contain the target's first character passes through unchanged. |
| Text.FirstOfDoubledRemoval | ImageSuite_Source/Util/Utilities.swift:44 | After removing a doubled character, the result starts with that character only if the input did. |
| Text.RemovingDoubledCharLeavesNone | ImageSuite_Source/Util/Utilities.swift:44 | Removing every occurrence of a doubled character, left to right, leaves no occurrence of it. |
| UrlGrammar.AfterScheme | ImageSuite_Source/Util/Constants_Types.swift:33 | The text after the scheme is present iff the string starts with the exact `http://` or `https://`. The string is then that scheme followed by the text. |
| UrlGrammar.GroupsAreUrlChars | ImageSuite_Source/Util/Constants_Types.swift:33 | Whatever the repeated separator-and-segment groups match consists of URL characters only. |
| UrlGrammar.UrlCharsAreGroups | ImageSuite_Source/Util/Constants_Types.swift:33 | Every string of URL characters that starts with a separator is matched by the repeated separator-and-segment groups. |
| UrlGrammar.HostAndPathIsFlat | ImageSuite_Source/Util/Constants_Types.swift:33 | The part after `://` matches iff all its characters are URL characters and at least one is a dot, a vertical bar or a slash. |
| UrlGrammar.IsCompleteUrlMatchesRegex | ImageSuite_Source/Util/Utilities.swift:30-33 | `isCompleteURL` (the flat test) holds iff the regular expression matches the whole string. |
| UrlGrammar.CompleteUrlShape | ImageSuite_Source/Util/Constants_Types.swift:33 | A complete URL starts with the exact lower-case `http://` or `https://`. After that it has only word characters, hyphens, underscores, vertical bars, dots and slashes, including at least one separator. |
| UrlGrammar.CompleteUrlHasNoSpace | ImageSuite_Source/Util/Constants_Types.swift:33 | A complete URL contains no whitespace or newline. |
| UrlGrammar.CompleteUrlExample | ImageSuite_Source/Util/Constants_Types.swift:33 | `http://example.com/a.png` is complete. |
| UrlGrammar.NotStartingWithLowercaseHIsRelative | ImageSuite_Source/Util/Constants_Types.swift:33 | A string that is empty or does not start with `h` is never complete. |
| UrlGrammar.SchemeExamples | ImageSuite_Source/Util/Constants_Types.swift:33 | `HTTP://…`, `ftp://…`, a leading space and `icons/logo.png` are all relative. |
| UrlGrammar.NoSeparatorExample | ImageSuite_Source/Util/Constants_Types.swift:33 | `http://localhost` is relative because nothing after `://` is a separator. |
| UrlGrammar.PortExample | ImageSuite_Source/Util/Constants_Types.swift:33 | A port (`http://example.com:8080/a.png`) makes an absolute URL relative. |
| UrlGrammar.QueryExample | ImageSuite_Source/Util/Constants_Types.swift:33 | A query string (`http://example.com/a.png?v=2`) makes an absolute URL relative. |
| UrlGrammar.ForeignCharExample | ImageSuite_Source/Util/Constants_Types.swift:33 | A `:` or `?` anywhere after `http://` makes the string relative. |
| Utilities.FileNameWithExtn | ImageSuite_Source/Util/Utilities.swift:39-41 | `fileNameWithExtn`: a suffix with no `/`, preceded by `/` unless it is the whole string, so it is the text after the last `/`. |
| Utilities.AddPathComponent | ImageSuite_Source/Util/Utilities.swift:35-37 | The result ends in the component, joined to a directory path with exactly one `/`. |
| Utilities.DeleteLastPathComponent | ImageSuite_Source/Util/Utilities.swift:47-49 | The result is empty for a path without `/`. A path whose only `/` is its first character gives the root `/`. Any other path with a `/` is the result, one `/` and the last component. |
| Utilities.AddThenDeleteLastPathComponent | ImageSuite_Source/Util/Utilities.swift:35-49 | Adding a `/`-free component to a directory, then taking the last component or deleting it, gives back the component and the directory. |
| Utilities.SanitisedFileName | ImageSuite_Source/Util/Utilities.swift:43-45 | `santisedFileName` output has no `:`, `/` or `.` and is never longer than its input. |
| Utilities.DoubleSlashPassLeavesNone | ImageSuite_Source/Util/Utilities.swift:44 | After the first pass of `santisedFileName`, no `//` remains anywhere. |
| Utilities.CharPassesAreSanitiseChars | ImageSuite_Source/Util/Utilities.swift:44 | The `:`, `/` and `.` passes act character by character: `:` and `.` are deleted, `/` becomes `_`, and everything else keeps its order. |
| Utilities.SanitisedIsPerCharacter | ImageSuite_Source/Util/Utilities.swift:44 | The sanitised name is the per-character rewrite of the input with `//` removed first. |
| Utilities.SanitisedIdempotent | ImageSuite_Source/Util/Utilities.swift:44 | Sanitising twice equals sanitising once. |
| Utilities.SanitiseCharsAppend | ImageSuite_Source/Util/Utilities.swift:44 | The per-character rewrite distributes over concatenation. |
| Utilities.SanitisedUrlShape | ImageSuite_Source/Util/Utilities.swift:44 | For plain words, `scheme://host.tld/name.ext` becomes `schemehosttld_nameext`, because `//` goes before single `/` turns into `_`. |
| Utilities.SanitisedUrlExample | ImageSuite_Source/Util/Utilities.swift:44 | `http://example.com/a.png` becomes `httpexamplecom_apng`. |
| Utilities.SanitisedOfDottedName | ImageSuite_Source/Util/Utilities.swift:44 | For plain words, `name.ext` becomes `nameext`. |
| Utilities.SanitisedDotCollision | ImageSuite_Source/Util/Utilities.swift:44 | `a.png` and `apng` sanitise to the same name, so sanitising is not injective. |
| Utilities.SanitisedSlashCollision | ImageSuite_Source/Util/Utilities.swift:44 | `a/b` and `a_b` sanitise to the same name. |
| Utilities.IsResourceFrom | ImageSuite_Source/Util/Utilities.swift:51-53 | `isResourceFrom(baseAddress:)` holds iff the base address is non-empty and occurs as a contiguous substring of the lower-cased receiver. |
| Utilities.UppercaseBaseNeverMatches | ImageSuite_Source/Util/Utilities.swift:51-53 | Only the receiver is lower-cased, so a base address with an upper-case letter never matches. |
| Utilities.PrefixedByLowercaseBase | ImageSuite_Source/Util/Utilities.swift:51-53 | A name that starts with a non-empty, all-lower-case base address is from that base address. |
| Constants.DefaultExpiryIsThreeDays | ImageSuite_Source/Util/Constants_Types.swift:37 | The default expiry of 259200 seconds is 3 × 24 × 3600 seconds. |
| FileOperations.SaveFile | ImageSuite_Source/Util/FileOperations.swift:35-57 | `saveFile`/`saveImage` returns the write's result; a directory-creation failure is ignored. On success the name holds exactly the bytes, created now. On failure the directory is unchanged, earlier contents included. No other file changes. |
| FileOperations.ClearDiskCache | ImageSuite_Source/Util/FileOperations.swift:79-81 | `clearDiskCache` leaves no file under the root and reports nothing. |
| FileOperations.CacheExpirationValue | ImageSuite_Source/Util/FileOperations.swift:73-77 | The configured expiry is used when one is set, and three days otherwise. |
| FileOperations.Sweep | ImageSuite_Source/Util/FileOperations.swift:83-108 | The sweep only removes files, and survivors keep bytes and creation time. A file is removed iff `now - created > limit`, its attributes can be read, and its removal succeeds. |
| FileOperations.RemoveResourcesOlderThan | ImageSuite_Source/Util/FileOperations.swift:83-108 | The walk over the listing removes exactly the listed files that are stale, readable and removable, all judged against one `now`. With a complete listing it equals the whole-directory sweep. |
| FileOperations.SweepBoundary | ImageSuite_Source/Util/FileOperations.swift:97 | A file exactly `limit` seconds old survives, and one second older is removed. |
| FileOperations.SweepIdempotent | ImageSuite_Source/Util/FileOperations.swift:97 | Sweeping twice with the same `now` and `limit` equals sweeping once. |
| FileOperations.SweepMonotoneInTime | ImageSuite_Source/Util/FileOperations.swift:84-97 | A sweep at a later time keeps a subset of what an earlier sweep keeps. |
| FileOperations.SavedFileSurvivesSweep | ImageSuite_Source/Util/FileOperations.swift:43-50 | A file saved at time `now` survives a sweep at `now` with a non-negative limit, with its bytes intact. |
| ImageManager.FetchOutcomeOf | ImageSuite_Source/Util/ImageDownloader.swift:48-65 | The handler gets data iff the status is 200 and there is a body. It is never called without an HTTP response. |
| ImageManager.SendRequestAsWritten | ImageSuite_Source/Util/ImageDownloader.swift:48-65 | As written, `sendRequest` stops at the forced unwrap of `error` exactly when there is no error and the response is not a 200. Otherwise it delivers what `FetchOutcomeOf` gives. |
| ImageManager.NotFoundWithoutErrorCrashes | ImageSuite_Source/Util/ImageDownloader.swift:57-59 | A 404 with no transport error stops the program before the handler runs. |
| ImageManager.NonOkStatusReachesHandler | ImageSuite_Source/Util/ImageDownloader.swift:57-59 | A status other than 200 reaches the handler without data. Whenever the code as written does not stop, it agrees with this. |
| ImageManager.CacheDirectory | ImageSuite_Source/ImageManager/ImageManager.swift:150-157 | `getCacheDirectory` returns none iff the platform lists no cache directory. Otherwise its last component is `ImageCache` and it is a directory path. |
| ImageManager.CacheDirectoryIsUnderPlatformDirectory | ImageSuite_Source/ImageManager/ImageManager.swift:155 | The cache directory sits directly inside the first platform cache directory. |
| ImageManager.CacheRootNameLastComponent | ImageSuite_Source/Util/Constants_Types.swift:32 | `ImageCache` appended to any directory is that path's last component. |
| ImageManager.GenerateResourceName | ImageSuite_Source/ImageManager/ImageManager.swift:97-106 | The result ends in the trimmed name. What precedes it is the base address when one is asked for and set, and nothing otherwise. |
| ImageManager.ResourceName | ImageSuite_Source/ImageManager/ImageManager.swift:59-60 | A complete URL is only trimmed. A relative name with a base address set gets the base address in front. Without a base address the name is only trimmed. |
| ImageManager.GenerateDiskFileNameFor | ImageSuite_Source/ImageManager/ImageManager.swift:140-145 | The key has no `/` and is no longer than the name. It is the last path component iff the name is from the base address, and the sanitised name otherwise, which is always the case without a base address. |
| ImageManager.GetCacheImagePathFor | ImageSuite_Source/ImageManager/ImageManager.swift:127-134 | None iff there is no cache directory. Otherwise the path's last component is the key and its directory is the cache directory, which is the directory `saveFile` creates. |
| ImageManager.FileExistsInCache | ImageSuite_Source/ImageManager/ImageManager.swift:112-121 | A file is found iff there is a cache directory and the last component of the cache path is a file in it. |
| ImageManager.LoadImage | ImageSuite_Source/ImageManager/ImageManager.swift:58-82 | A hit gives the completion the cached path, sends no request and keeps the cache. A miss sends a request iff one can be built. With data and a cache directory, the completion gets the path and the cache gets the bytes on a successful save; on a failed save it gets nil. The completion is never called exactly on a miss without data or without a cache directory, and then the cache is unchanged. Only the key's entry can change. |
| ImageManager.ClearCache | ImageSuite_Source/ImageManager/ImageManager.swift:84-87 | With a cache directory every file is gone. Without one nothing changes. |
| ImageManager.StartUp | ImageSuite_Source/ImageManager/ImageManager.swift:31-42 | Start-up only removes files. With a cache directory it sweeps with the configured expiry, or three days; without one nothing changes. |
| Utilities.FileNameOfSlashThenName | ImageSuite_Source/Util/Utilities.swift:39-41 | A `/`-free tail after a `/` is the last path component. |
| Text.TrimOfTrimmed | ImageSuite_Source/ImageManager/ImageManager.swift:98 | A string with no whitespace at either end is left unchanged by trimming. |
| ImageManager.CompleteUrlUsedVerbatim | ImageSuite_Source/ImageManager/ImageManager.swift:59-60 | A complete URL becomes the resource name as given. |
| ImageManager.LeadingSpaceMakesUrlRelative | ImageSuite_Source/ImageManager/ImageManager.swift:59-60 | The classification runs before trimming, so `" " + url` gets the base address in front of `url`. |
| ImageManager.RelativeNameKeyedByLastComponent | ImageSuite_Source/ImageManager/ImageManager.swift:59-60 | With a non-empty, all-lower-case base address, a relative name is keyed by the last component of base address + trimmed name. |
| ImageManager.RelativeNameExample | ImageSuite_Source/ImageManager/ImageManager.swift:140-145 | `icons/logo.png` under `http://cdn.test/` is cached as `logo.png`. |
| ImageManager.CompleteUrlWithoutBaseExample | ImageSuite_Source/ImageManager/ImageManager.swift:140-145 | Without a base address, `http://example.com/a.png` is cached as `httpexamplecom_apng`. |
| ImageManager.LoadAfterSavedDownloadHits | ImageSuite_Source/ImageManager/ImageManager.swift:61-78 | After a download is saved, loading the same string again is a hit: same path, no request, and the saved bytes. |
| ImageManager.FailedDownloadIsRetried | ImageSuite_Source/ImageManager/ImageManager.swift:72-80 | A download without data, or without a callback, leaves the cache unchanged and never calls the completion. The next load sends a new request. |
| ImageManager.NonOkStatusNeverCompletes | ImageSuite_Source/Util/ImageDownloader.swift:54-60 | On a miss, a non-200 response leaves the completion uncalled and the cache unchanged. This is the corrected behaviour; see Findings. |
| ImageManager.ClearThenMiss | ImageSuite_Source/ImageManager/ImageManager.swift:84-87 | After `clearCache`, every load misses and sends its request. |
| ImageManager.NoCacheDirectoryNeverCompletes | ImageSuite_Source/ImageManager/ImageManager.swift:85 | Without a cache directory nothing is found, saved or cleared, and the completion is never called. |
| ImageManager.StartUpKeepsThreeDays | ImageSuite_Source/ImageManager/ImageManager.swift:34-38 | With the default expiry, start-up keeps a file exactly three days old and removes one a second older. This is the corrected behaviour; see Findings. |
| FileOperations.ForcedCastToDouble | ImageSuite_Source/Util/FileOperations.swift:76 | `as! Double` succeeds exactly on a property-list number, keeping its value, and fails on a boxed `Int`. |
| FileOperations.CacheExpirationValueAsWritten | ImageSuite_Source/Util/FileOperations.swift:73-77 | As written, the cast fails exactly when no expiry is configured. Otherwise it gives the configured value, as `CacheExpirationValue` does. |
| ImageManager.StartUpAsWritten | ImageSuite_Source/ImageManager/ImageManager.swift:31-42 | As written, start-up stops exactly when there is a cache directory and no configured expiry. Otherwise it does what `StartUp` does. |
| ImageManager.UnconfiguredExpiryStopsStartUp | ImageSuite_Source/Util/FileOperations.swift:73-77 | With a cache directory and no configured expiry, start-up as written stops; configuring three days explicitly gives the corrected start-up. |
| ImageManager.SharedKeyServesOtherImage | ImageSuite_Source/ImageManager/ImageManager.swift:61-65 | Two strings with the same key share one entry. Once the first is saved, loading the second is a hit on the first one's bytes. |
| ImageManager.DotCollisionKeys | ImageSuite_Source/ImageManager/ImageManager.swift:140-145 | Without a base address, `a.png` and `apng` both get the key `apng`. |

## Left out

- Foundation `URL` values are modelled as `/`-separated strings, with none of URL parsing. The crashes behind the force unwraps in `Utilities.swift` are not modelled. These are the cases where `URL(string:)` rejects the string.
- Utilities.FileNameWithExtn: returns the text after the last `/`, while Foundation's `lastPathComponent` works on the URL's path. Foundation drops a query (`?…`) and a fragment (`#…`), decodes percent escapes such as `%20`, ignores a trailing `/`, gives `/` for a URL whose path is only the root, and gives the empty string for a URL with an empty path such as `http://cdn.test`, which the model keys `cdn.test`. So with base address `http://cdn.test/`, the program gives `a.png?v=1` and `a.png?v=2` the one key `a.png`, while the model gives them different keys; the program keys `icons/` as `icons`, while the model gives the empty key. The two agree only on names without `?`, `#` or `%` whose path is not empty and neither ends in `/` nor is the root.
- Utilities.AddPathComponent, Utilities.DeleteLastPathComponent: join and split on `/` without the percent-encoding and decoding that `appendingPathComponent` and `.path` perform, and without Foundation's handling of an empty component.
- ImageManager.GetCacheImagePathFor, ImageManager.FileExistsInCache: treat an empty key as an ordinary file name. In the branch that keys a name by its last component, the model gives the empty key to a name ending in `/`, such as a base address ending in `/` followed by an empty relative name; in the sanitised branch the trailing `/` becomes `_` and the key is not empty. For a base address with a root path, such as `http://cdn.test/`, the program's key for the base address alone is `/`, and that key joined to the cache directory names the directory itself; for a base address with an empty path, such as `http://cdn.test`, the program's key is the empty string.
- Unicode is out of scope. `\w`, lower-casing and whitespace are ASCII only.
- `Date` and `Double` arithmetic is replaced by whole seconds held in `int`.
- Concurrency is out of scope. The sweep's background queue, delivery of the completion on the main queue and the lazy singleton are all treated as sequential steps.
- Platform lookups are parameters. This covers `Bundle` configuration reads, `NSSearchPathForDirectoriesInDomains` and the force unwrap in `loadBaseURL`.
- FileOperations.CacheExpirationValue: gives three days when no expiry is configured, which is the evidently intended value; the program as written stops at the cast of that default (see Findings). A configured value that is not a number, such as a string, is not modelled.
- `ImageManager.LoadImage`: whether `URL(string:)` accepts the resource name is an input, the `NoRequest` download outcome. URL parsing is not modelled.
- `ImageDownloader.swift` becomes an abstract download outcome. The stop on `error!` at lines 58 and 62 of that file is modelled only by `ImageManager.SendRequestAsWritten`. The rest of the model uses `ImageManager.FetchOutcomeOf`, which does not stop (see Findings).
- A failing `removeItem` in `clearDiskCache` is not modelled; the model always leaves the cache empty.
- `FileOperations.loadImage(from:)`, `deletePathExtension`, `allowConsoleLogs` and the logger are left out. They read image files, are never called by the modelled core, or only log.
- The `AsynImageView` UIKit view is left out.
- Directory enumeration is flat. The cache is the set of files directly under the root, and sub-directories are not modelled.
- FileOperations.Sweep, FileOperations.RemoveResourcesOlderThan: treat every file whose attributes can be read as having a creation date. The program force-casts the `creationDate` attribute (FileOperations.swift:95) and would stop on a file without one, which platform file systems do not produce.

## Findings

| source | as written | input that shows it | evidently intended | confidence | as-written member | corrected member |
|---|---|---|---|---|---|---|
| ImageSuite_Source/Util/ImageDownloader.swift:57-59 | For a status other than 200, the code logs `error!` before calling the handler. `URLSession` reports no error for an HTTP error status, so the unwrap stops the program. | a 404 response with `error == nil` | The handler is called with no data, and `loadImage` leaves the completion uncalled and the cache unchanged. | high; not executed | ImageManager.NotFoundWithoutErrorCrashes | ImageManager.NonOkStatusReachesHandler |
| ImageSuite_Source/Util/FileOperations.swift:74-76 | With no expiry in the bundle, `??` boxes the `Int` constant `defaultCacheExpiryTime` (Constants_Types.swift:37) into `Any`, and `as! Double` on a boxed `Int` fails, stopping the program during `sharedInstance` start-up. | a bundle without the `ImageSuiteCacheInvalidateValue` key, on a device that has a cache directory | The default of three days is used: files older than 259200 seconds are swept. | medium; not executed | ImageManager.UnconfiguredExpiryStopsStartUp | FileOperations.CacheExpirationValue |

=== FILE: constants.dfy ===
/** The fixed values of the image cache. */
module Constants {

  /** Name of the directory, under the platform cache directory, that holds the cached files. */
  const CacheRootName: string := "ImageCache"

  /** Expiry used when the host configuration sets none, in seconds. */
  const DefaultCacheExpiryTime: int := 259200

  const SecondsPerDay: int := 24 * 3600

  /** The default expiry is three days. */
  lemma DefaultExpiryIsThreeDays()
    ensures DefaultCacheExpiryTime == 3 * SecondsPerDay
  {
  }
}

=== FILE: file_operations.dfy ===
/**
 The disk side of the image cache. The cache root directory is a flat map from file name to the
 file's bytes and creation time in whole seconds. Every file-system outcome the Swift code does
 not control is an explicit parameter: whether a write succeeds, and which files have
 unreadable attributes or resist deletion.
 */
module FileOperations {
  import opened Wrappers
  import Constants

  type Bytes = seq<bv8>

  /** One cached file: its contents and its creation time. */
  datatype Entry = Entry(data: Bytes, created: int)

  /** The contents of the cache root directory, by file name. */
  type Cache = map<string, Entry>

  /** What `saveFile` reports, together with the directory after the attempt. */
  datatype SaveOutcome = SaveOutcome(saved: bool, cache: Cache)

  /**
   `saveFile` / `saveImage`: an atomic write of `data` to the file `name`. A failure to create
   the directory is ignored, so the write alone decides the result. A successful write leaves
   exactly `data`, created `now`, under `name`. A failed write leaves the directory as it was,
   including any earlier contents under `name`. No other file is touched either way.
   */
  function SaveFile(cache: Cache, name: string, data: Bytes, now: int, writeSucceeds: bool): (r: SaveOutcome)
    ensures r.saved == writeSucceeds
    ensures r.saved ==> name in r.cache && r.cache[name] == Entry(data, now)
    ensures !r.saved ==> r.cache == cache
    ensures forall other :: other != name ==> (other in r.cache <==> other in cache)
    ensures forall other :: other in cache && other != name ==> r.cache[other] == cache[other]
  {
    if writeSucceeds then SaveOutcome(true, cache[name := Entry(data, now)]) else SaveOutcome(false, cache)
  }

  /** `clearDiskCache`: the root directory and everything in it is removed; nothing is reported. */
  function ClearDiskCache(cache: Cache): (r: Cache)
    ensures forall name :: name !in r
  {
    map[]
  }

  /**
   `getCacheExpirationValue`: the expiry configured by the host application, or three days
   when none is configured.
   */
  function CacheExpirationValue(configured: Option<int>): (r: int)
    ensures configured.Some? ==> r == configured.value
    ensures configured.None? ==> r == 3 * Constants.SecondsPerDay
  {
    Constants.DefaultExpiryIsThreeDays();
    configured.GetOr(Constants.DefaultCacheExpiryTime)
  }

  /**
   The value `getCacheExpirationValue` casts with `as! Double`: a number read from the bundle's
   property list, which bridges to `Double`, or the `Int` constant `defaultCacheExpiryTime`
   boxed into `Any` by `??`, which does not.
   */
  datatype BoxedExpiry = PropertyListNumber(seconds: int) | NativeInt(seconds: int)

  /** The outcome of a forced cast: the value, or a stop of the program. */
  datatype Cast = CastFails | Casts(value: int)

  /** `as! Double` on a boxed expiry: only a property-list number converts. */
  function ForcedCastToDouble(b: BoxedExpiry): (r: Cast)
    ensures r.Casts? <==> b.PropertyListNumber?
    ensures r.Casts? ==> r.value == b.seconds
  {
    match b
    case PropertyListNumber(n) => Casts(n)
    case NativeInt(_) => CastFails
  }

  /**
   `getCacheExpirationValue` as written: the configured value when the host application sets one,
   and otherwise a forced cast of the boxed `Int` default, which fails.
   */
  function CacheExpirationValueAsWritten(configured: Option<int>): (r: Cast)
    ensures r.CastFails? <==> configured.None?
    ensures r.Casts? ==> r.value == CacheExpirationValue(configured)
  {
    var boxed := match configured
      case Some(n) => PropertyListNumber(n)
      case None => NativeInt(Constants.DefaultCacheExpiryTime);
    ForcedCastToDouble(boxed)
  }

  /** An entry is stale when strictly more than `limit` seconds have passed since its creation. */
  predicate Expired(e: Entry, now: int, limit: int) {
    now - e.created > limit
  }

  /** The files whose attributes cannot be read, and the files whose removal fails. */
  datatype Faults = Faults(unreadable: set<string>, undeletable: set<string>)

  const NoFaults := Faults({}, {})

  /** The sweep deletes `name`: it is present, readable, stale and removable. */
  predicate SweepDeletes(cache: Cache, name: string, now: int, limit: int, faults: Faults) {
    && name in cache
    && name !in faults.unreadable
    && Expired(cache[name], now, limit)
    && name !in faults.undeletable
  }

  /**
   The effect of `removeResourcesOlderThan` on the whole directory, every file judged against
   the one `now` captured before the sweep starts. Files are only ever removed: a survivor
   keeps its bytes and creation time, and a file the sweep cannot read or remove survives.
   */
  function Sweep(cache: Cache, now: int, limit: int, faults: Faults): (r: Cache)
    ensures forall name :: name in r ==> name in cache && r[name] == cache[name]
    ensures forall name :: name in cache ==>
      (name !in r <==> Expired(cache[name], now, limit) && name !in faults.unreadable && name !in faults.undeletable)
  {
    map name | name in cache && !SweepDeletes(cache, name, now, limit, faults) :: cache[name]
  }

  /**
   `removeResourcesOlderThan(_:from:)`: walks the directory listing in enumeration order, reads
   each file's creation date and removes the file when it is stale. An unreadable file is
   skipped and a failed removal does not stop the walk. When the listing names every file, the
   result is the whole-directory `Sweep`.
   */
  method RemoveResourcesOlderThan(cache: Cache, listing: seq<string>, now: int, limit: int, faults: Faults)
    returns (r: Cache)
    ensures forall name :: name in r ==> name in cache && r[name] == cache[name]
    ensures forall name :: name in cache ==>
      (name !in r <==> name in listing && SweepDeletes(cache, name, now, limit, faults))
    ensures (forall name :: name in cache ==> name in listing) ==> r == Sweep(cache, now, limit, faults)
  {
    r := cache;
    var i := 0;
    while i < |listing|
      invariant 0 <= i <= |listing|
      invariant forall name :: name in r ==> name in cache && r[name] == cache[name]
      invariant forall name :: name in cache ==>
        (name !in r <==> name in listing[..i] && SweepDeletes(cache, name, now, limit, faults))
    {
      var element := listing[i];
      if element in r && element !in faults.unreadable {
        if now - r[element].created > limit && element !in faults.undeletable {
          r := r - {element};
        }
      }
      assert listing[..i + 1] == listing[..i] + [element];
      i := i + 1;
    }
    assert listing[..i] == listing;
  }

  /** An entry exactly `limit` seconds old survives the sweep; one second later it is removed. */
  lemma SweepBoundary(cache: Cache, name: string, limit: int)
    requires name in cache
    ensures name in Sweep(cache, cache[name].created + limit, limit, NoFaults)
    ensures name !in Sweep(cache, cache[name].created + limit + 1, limit, NoFaults)
  {
  }

  /** Sweeping twice with the same `now` and `limit` removes nothing more than sweeping once. */
  lemma SweepIdempotent(cache: Cache, now: int, limit: int, faults: Faults)
    ensures Sweep(Sweep(cache, now, limit, faults), now, limit, faults) == Sweep(cache, now, limit, faults)
  {
  }

  /** A later sweep removes at least what an earlier one removes. */
  lemma SweepMonotoneInTime(cache: Cache, earlier: int, later: int, limit: int, faults: Faults)
    requires earlier <= later
    ensures Sweep(cache, later, limit, faults).Keys <= Sweep(cache, earlier, limit, faults).Keys
  {
  }

  /** A file just saved survives any sweep run at the time of the save with a non-negative limit. */
  lemma SavedFileSurvivesSweep(cache: Cache, name: string, data: Bytes, now: int, limit: int, faults: Faults)
    requires limit >= 0
    ensures var saved := SaveFile(cache, name, data, now, true).cache;
      name in Sweep(saved, now, limit, faults) && Sweep(saved, now, limit, faults)[name].data == data
  {
  }
}

=== FILE: image_manager.dfy ===
/**
 `ImageManager`: how a caller's image string becomes a cache key, where the cached file lives,
 and what `loadImage(from:onCompletion:)` does to the cache and to the caller's completion.
 The network and the disk are parameters: the outcome of the download, the current time and
 whether the write succeeds.
 */
module ImageManager {
  import opened Wrappers
  import opened Text
  import opened UrlGrammar
  import opened Utilities
  import opened FileOperations
  import Constants

  /**
   The manager's state: the base address read by `loadBaseURL` (absent until it is loaded or
   when the host application sets none) and the platform's user cache directories, in the order
   `NSSearchPathForDirectoriesInDomains` lists them.
   */
  datatype Manager = Manager(baseAddress: Option<string>, searchPaths: seq<Path>)

  /** How the download of a request ends, as `ImageDownloader` reports it to `loadImage`. */
  datatype FetchOutcome =
    | NoRequest          // `URL(string:)` rejects the resource name; nothing is sent
    | Data(bytes: Bytes) // status 200 with a body: the callback gets the data
    | NoData             // the callback runs without data
    | NoCallback         // no HTTP response: the callback is never run

  /** What happens to the caller's completion handler. */
  datatype Completion = NotInvoked | InvokedNil | InvokedPath(path: Path)

  /** The cache after `loadImage`, what the completion received, and whether a request was sent. */
  datatype LoadResult = LoadResult(cache: Cache, completion: Completion, requestSent: bool)

  /** An HTTP exchange as `URLSession` hands it to `sendRequest`. */
  datatype Response = NoHttpResponse | HttpResponse(status: int, body: Option<Bytes>)

  /**
   `ImageDownloader.sendRequest`: the handler receives the body only for status 200; any other
   status calls it without data, and a missing HTTP response never calls it.
   */
  function FetchOutcomeOf(response: Response): (r: FetchOutcome)
    ensures r != NoRequest
    ensures r.Data? <==> response.HttpResponse? && response.status == 200 && response.body.Some?
    ensures r.Data? ==> r.bytes == response.body.value
    ensures r == NoCallback <==> response == NoHttpResponse
  {
    match response
    case NoHttpResponse => NoCallback
    case HttpResponse(status, body) =>
      if status == 200 && body.Some? then Data(body.value) else NoData
  }

  /** Whether `sendRequest` reaches its handler, or stops at a forced unwrap of the error. */
  datatype Delivery = Crashes | Delivers(outcome: FetchOutcome)

  /**
   `ImageDownloader.sendRequest` as written: before calling the handler for a status other than
   200, and before giving up on a missing HTTP response, it logs `error!`, which stops the
   program when the session reports no error.
   */
  function SendRequestAsWritten(response: Response, error: Option<string>): (r: Delivery)
    ensures r == Crashes <==> error.None? && !(response.HttpResponse? && response.status == 200)
    ensures r.Delivers? ==> r.outcome == FetchOutcomeOf(response)
  {
    match response
    case NoHttpResponse => if error.None? then Crashes else Delivers(NoCallback)
    case HttpResponse(status, body) =>
      if status == 200 then Delivers(FetchOutcomeOf(response))
      else if error.None? then Crashes else Delivers(NoData)
  }

  /**
   A 404 arrives as an HTTP response with no transport error, and the forced unwrap stops the
   program instead of reporting the failure.
   */
  lemma NotFoundWithoutErrorCrashes(body: Option<Bytes>)
    ensures SendRequestAsWritten(HttpResponse(404, body), None) == Crashes
  {
  }

  /**
   What the logging line evidently intends: a status other than 200 reaches the handler without
   data whether or not the session reports an error, which is `FetchOutcomeOf`; whenever the
   code as written does not stop, it agrees with it.
   */
  lemma NonOkStatusReachesHandler(response: Response, error: Option<string>)
    ensures response.HttpResponse? && response.status != 200 ==> FetchOutcomeOf(response) == NoData
    ensures SendRequestAsWritten(response, error).Delivers? ==>
      SendRequestAsWritten(response, error).outcome == FetchOutcomeOf(response)
  {
  }

  /**
   `getCacheDirectory`: the `ImageCache` directory inside the first user cache directory, or
   none when the platform lists no cache directory.
   */
  function CacheDirectory(m: Manager): (r: Option<Path>)
    ensures r.None? <==> m.searchPaths == []
    ensures r.Some? ==> FileNameWithExtn(r.value) == Constants.CacheRootName
    ensures r.Some? ==> IsDirectoryPath(r.value)
  {
    if m.searchPaths == [] then None
    else
      var dir := AddPathComponent(m.searchPaths[0], Constants.CacheRootName);
      CacheRootNameLastComponent(m.searchPaths[0]);
      Some(dir)
  }

  /** The cache directory sits directly inside the first platform cache directory. */
  lemma CacheDirectoryIsUnderPlatformDirectory(m: Manager)
    requires m.searchPaths != [] && IsDirectoryPath(m.searchPaths[0])
    ensures DeleteLastPathComponent(CacheDirectory(m).value) == m.searchPaths[0]
  {
    CacheRootNameHasNoSlash();
    AddThenDeleteLastPathComponent(m.searchPaths[0], Constants.CacheRootName);
  }

  lemma CacheRootNameHasNoSlash()
    ensures '/' !in Constants.CacheRootName
  {
    var name := Constants.CacheRootName;
    forall i | 0 <= i < |name| ensures name[i] != '/' {
      assert name[i] in "ImageCache";
    }
  }

  /** Whatever the platform directory is, the last component of the joined path is `ImageCache`. */
  lemma CacheRootNameLastComponent(root: Path)
    ensures FileNameWithExtn(AddPathComponent(root, Constants.CacheRootName)) == Constants.CacheRootName
    ensures IsDirectoryPath(AddPathComponent(root, Constants.CacheRootName))
  {
    var name := Constants.CacheRootName;
    var p := AddPathComponent(root, name);
    CacheRootNameHasNoSlash();
    var k := |p| - |name|;
    if root != [] && root[|root| - 1] == '/' {
      assert p == root + name;
      assert p[k - 1] == root[|root| - 1];
    } else {
      assert p == root + "/" + name;
      assert p[k - 1] == '/';
    }
    FileNameOfSlashThenName(p, k);
  }

  /**
   `generateResourceName(with:usingBaseAddress:)`: the name with leading and trailing whitespace
   and newlines removed, behind the base address when one is asked for and one is set.
   */
  function GenerateResourceName(name: string, usingBaseAddress: bool, baseAddress: Option<string>): (r: string)
    ensures var core := Trim(name);
      |core| <= |r| && r[|r| - |core|..] == core
    ensures var core := Trim(name);
      r[..|r| - |core|] == (if usingBaseAddress && baseAddress.Some? then baseAddress.value else [])
  {
    var resourceName := Trim(name);
    if usingBaseAddress && baseAddress.Some? then baseAddress.value + resourceName else resourceName
  }

  /**
   The resource name `loadImage` derives from the caller's string: the base address is asked for
   when the string as given, before trimming, is not a complete URL.
   */
  function ResourceName(m: Manager, imageURL: string): (r: string)
    ensures IsCompleteUrl(imageURL) ==> r == Trim(imageURL)
    ensures !IsCompleteUrl(imageURL) && m.baseAddress.Some? ==> r == m.baseAddress.value + Trim(imageURL)
    ensures m.baseAddress.None? ==> r == Trim(imageURL)
  {
    GenerateResourceName(imageURL, !IsCompleteUrl(imageURL), m.baseAddress)
  }

  /**
   `generateDiskFileNameFor`: the last path component when the name is from the base address
   (an unset base address counts as the empty one, which is never found), and the sanitised
   name otherwise. Either way the key has no `/` and is no longer than the name.
   */
  function GenerateDiskFileNameFor(resourceName: string, baseAddress: Option<string>): (r: string)
    ensures '/' !in r
    ensures |r| <= |resourceName|
    ensures IsResourceFrom(resourceName, baseAddress.GetOr([])) ==> r == FileNameWithExtn(resourceName)
    ensures !IsResourceFrom(resourceName, baseAddress.GetOr([])) ==>
      r == SanitisedFileName(resourceName) && ':' !in r && '.' !in r
    ensures baseAddress.None? ==> r == SanitisedFileName(resourceName)
  {
    var baseAdd := baseAddress.GetOr([]);
    if IsResourceFrom(resourceName, baseAdd) then FileNameWithExtn(resourceName) else SanitisedFileName(resourceName)
  }

  /** The cache key of a resource name under this manager's base address. */
  function CacheKey(m: Manager, resourceName: string): (r: string)
    ensures '/' !in r
  {
    GenerateDiskFileNameFor(resourceName, m.baseAddress)
  }

  /**
   `getCacheImagePathFor`: the key joined to the cache directory; none without a cache
   directory. The path's last component is the key and its directory is the cache directory,
   which is the directory `saveFile` creates.
   */
  function GetCacheImagePathFor(m: Manager, resourceName: string): (r: Option<Path>)
    ensures r.None? <==> CacheDirectory(m).None?
    ensures r.Some? ==> FileNameWithExtn(r.value) == CacheKey(m, resourceName)
    ensures r.Some? ==> DeleteLastPathComponent(r.value) == CacheDirectory(m).value
  {
    match CacheDirectory(m)
    case None => None
    case Some(dir) =>
      var key := CacheKey(m, resourceName);
      AddThenDeleteLastPathComponent(dir, key);
      Some(AddPathComponent(dir, key))
  }

  /**
   `fileExistsInCache`: the file is there when there is a cache directory and its contents hold
   the key; without a cache directory nothing is ever found.
   */
  function FileExistsInCache(m: Manager, cache: Cache, resourceName: string): (r: bool)
    ensures r ==> GetCacheImagePathFor(m, resourceName).Some?
    ensures r <==> CacheDirectory(m).Some? && FileNameWithExtn(GetCacheImagePathFor(m, resourceName).value) in cache
  {
    match GetCacheImagePathFor(m, resourceName)
    case None => false
    case Some(path) => CacheKey(m, resourceName) in cache
  }

  /**
   `loadImage(from:onCompletion:)`. A hit hands the cached path to the completion, sends no
   request and leaves the cache alone. A miss sends the request when one can be built; with
   data and a cache directory the data is saved under the key, and the completion gets the path
   if the save succeeds and nil if it fails. Every other miss never calls the completion and
   leaves the cache as it was.
   */
  function LoadImage(m: Manager, cache: Cache, imageURL: string, fetch: FetchOutcome, now: int, writeSucceeds: bool)
    : (r: LoadResult)
    ensures var name := ResourceName(m, imageURL);
      FileExistsInCache(m, cache, name) ==>
        r == LoadResult(cache, InvokedPath(GetCacheImagePathFor(m, name).value), false)
    ensures var name := ResourceName(m, imageURL);
      !FileExistsInCache(m, cache, name) ==> (r.requestSent <==> fetch != NoRequest)
    ensures r.completion.InvokedPath? ==>
      var name := ResourceName(m, imageURL);
      && GetCacheImagePathFor(m, name) == Some(r.completion.path)
      && CacheKey(m, name) in r.cache
    ensures var name := ResourceName(m, imageURL);
      !FileExistsInCache(m, cache, name) && fetch.Data? && CacheDirectory(m).Some? ==>
        && (writeSucceeds ==> r.completion.InvokedPath? && r.cache[CacheKey(m, name)] == Entry(fetch.bytes, now))
        && (!writeSucceeds ==> r.completion == InvokedNil && r.cache == cache)
    ensures r.completion == NotInvoked <==>
      var name := ResourceName(m, imageURL);
      !FileExistsInCache(m, cache, name) && (!fetch.Data? || CacheDirectory(m).None?)
    ensures r.completion == NotInvoked ==> r.cache == cache
    ensures var key := CacheKey(m, ResourceName(m, imageURL));
      forall other :: other != key ==> (other in r.cache <==> other in cache)
    ensures var key := CacheKey(m, ResourceName(m, imageURL));
      forall other :: other in cache && other != key ==> r.cache[other] == cache[other]
  {
    var name := ResourceName(m, imageURL);
    if FileExistsInCache(m, cache, name) then
      LoadResult(cache, InvokedPath(GetCacheImagePathFor(m, name).value), false)
    else
      match fetch
      case NoRequest => LoadResult(cache, NotInvoked, false)
      case NoCallback => LoadResult(cache, NotInvoked, true)
      case NoData => LoadResult(cache, NotInvoked, true)
      case Data(bytes) =>
        match GetCacheImagePathFor(m, name)
        case None => LoadResult(cache, NotInvoked, true)
        case Some(path) =>
          var outcome := SaveFile(cache, CacheKey(m, name), bytes, now, writeSucceeds);
          LoadResult(outcome.cache, if outcome.saved then InvokedPath(path) else InvokedNil, true)
  }

  /** `clearCache`: removes the cache directory when there is one, and does nothing otherwise. */
  function ClearCache(m: Manager, cache: Cache): (r: Cache)
    ensures CacheDirectory(m).None? ==> r == cache
    ensures CacheDirectory(m).Some? ==> forall name :: name !in r
  {
    match CacheDirectory(m)
    case None => cache
    case Some(dir) => ClearDiskCache(cache)
  }

  /**
   The start-up work of `sharedInstance`: with a cache directory, every file older than the
   configured expiry (three days when none is configured) is swept, against the time `now` of
   start-up. Without a cache directory nothing happens.
   */
  function StartUp(m: Manager, cache: Cache, now: int, configuredExpiry: Option<int>, faults: Faults): (r: Cache)
    ensures CacheDirectory(m).None? ==> r == cache
    ensures forall name :: name in r ==> name in cache && r[name] == cache[name]
    ensures CacheDirectory(m).Some? ==> r == Sweep(cache, now, CacheExpirationValue(configuredExpiry), faults)
  {
    match CacheDirectory(m)
    case None => cache
    case Some(dir) => Sweep(cache, now, CacheExpirationValue(configuredExpiry), faults)
  }

  /**
   The start-up work of `sharedInstance` as written: the expiry is read only when there is a cache
   directory, and without a configured expiry its forced cast stops the program (`None`).
   Otherwise it is the sweep `StartUp` performs.
   */
  function StartUpAsWritten(m: Manager, cache: Cache, now: int, configuredExpiry: Option<int>, faults: Faults): (r: Option<Cache>)
    ensures r.None? <==> CacheDirectory(m).Some? && configuredExpiry.None?
    ensures r.Some? ==> r.value == StartUp(m, cache, now, configuredExpiry, faults)
  {
    match CacheDirectory(m)
    case None => Some(cache)
    case Some(dir) =>
      match CacheExpirationValueAsWritten(configuredExpiry)
      case CastFails => None
      case Casts(limit) => Some(Sweep(cache, now, limit, faults))
  }

  /**
   With a cache directory and no expiry in the bundle, start-up as written stops at the cast of
   the default, so the three-day sweep `StartUpKeepsThreeDays` describes is never reached.
   */
  lemma UnconfiguredExpiryStopsStartUp(m: Manager, cache: Cache, now: int, faults: Faults)
    requires CacheDirectory(m).Some?
    ensures StartUpAsWritten(m, cache, now, None, faults) == None
    ensures StartUpAsWritten(m, cache, now, Some(Constants.DefaultCacheExpiryTime), faults)
            == Some(StartUp(m, cache, now, None, faults))
  {
  }

  /** A complete URL is used as given: no base address and no trimming change it. */
  lemma CompleteUrlUsedVerbatim(m: Manager, imageURL: string)
    requires IsCompleteUrl(imageURL)
    ensures ResourceName(m, imageURL) == imageURL
  {
    CompleteUrlHasNoSpace(imageURL);
    assert |imageURL| >= 7;
    TrimOfTrimmed(imageURL);
  }

  /**
   The URL is classified before it is trimmed: a complete URL behind a leading space counts as
   relative, so with a base address set the base address ends up in front of the URL.
   */
  lemma LeadingSpaceMakesUrlRelative(m: Manager, imageURL: string)
    requires IsCompleteUrl(imageURL)
    requires m.baseAddress.Some?
    ensures ResourceName(m, " " + imageURL) == m.baseAddress.value + imageURL
  {
    NotStartingWithLowercaseHIsRelative(" " + imageURL);
    CompleteUrlHasNoSpace(imageURL);
    assert |imageURL| >= 7;
    assert " " + imageURL + [] == " " + imageURL;
    TrimUnique(" ", imageURL, []);
  }

  /**
   With a non-empty, all-lower-case base address, a relative name is keyed by the last path
   component of the base address followed by the trimmed name.
   */
  lemma RelativeNameKeyedByLastComponent(m: Manager, name: string)
    requires m.baseAddress.Some? && m.baseAddress.value != []
    requires Lower(m.baseAddress.value) == m.baseAddress.value
    requires !IsCompleteUrl(name)
    ensures CacheKey(m, ResourceName(m, name)) == FileNameWithExtn(m.baseAddress.value + Trim(name))
  {
    PrefixedByLowercaseBase(m.baseAddress.value, Trim(name));
  }

  /** `icons/logo.png` under the base address `http://cdn.test/` is cached as `logo.png`. */
  lemma RelativeNameExample()
    ensures CacheKey(Manager(Some("http://cdn.test/"), ["/var/cache"]),
                     ResourceName(Manager(Some("http://cdn.test/"), ["/var/cache"]), "icons/logo.png"))
         == "logo.png"
  {
    RelativeNameExampleFor(Manager(Some("http://cdn.test/"), ["/var/cache"]), "http://cdn.test/", "icons/logo.png");
  }

  /**
   The same example with the strings as parameters fixed by the requires, so that the verifier
   does not unfold the recursive definitions along long literals.
   */
  lemma RelativeNameExampleFor(m: Manager, base: string, name: string)
    requires base == "http://cdn.test/" && name == "icons/logo.png"
    requires m.baseAddress == Some(base)
    ensures CacheKey(m, ResourceName(m, name)) == "logo.png"
  {
    LowercaseBaseExample(base);
    RelativeTrimmedExample(name);
    RelativeNameKeyedByLastComponent(m, name);
    JoinedExample(base, name, base + name);
    LastComponentExample(base + name);
  }

  lemma LowercaseBaseExample(base: string)
    requires base == "http://cdn.test/"
    ensures base != [] && Lower(base) == base
  {
    forall i | 0 <= i < |base| ensures !IsUpper(base[i]) {
      assert base[i] in "htp:/cdn.es";
    }
    LowerOfLowercase(base);
  }

  lemma RelativeTrimmedExample(name: string)
    requires name == "icons/logo.png"
    ensures !IsCompleteUrl(name) && Trim(name) == name
  {
    NotStartingWithLowercaseHIsRelative(name);
    assert IsTrimmed(name) by {
      assert name[0] == 'i' && name[|name| - 1] == 'g';
    }
    TrimOfTrimmed(name);
  }

  lemma JoinedExample(base: string, name: string, full: string)
    requires base == "http://cdn.test/" && name == "icons/logo.png" && full == base + name
    ensures full == "http://cdn.test/icons/logo.png"
  {
  }

  lemma LastComponentExample(full: string)
    requires full == "http://cdn.test/icons/logo.png"
    ensures FileNameWithExtn(full) == "logo.png"
  {
    assert full[22..] == "logo.png";
    assert full[21] == '/';
    forall i | 22 <= i < |full| ensures full[i] != '/' {
      assert full[i] in "logo.png";
    }
    FileNameOfSlashThenName(full, 22);
  }

  /** Without a base address, a complete URL is keyed by its sanitised form. */
  lemma CompleteUrlWithoutBaseExample()
    ensures CacheKey(Manager(None, ["/var/cache"]),
                     ResourceName(Manager(None, ["/var/cache"]), "http://example.com/a.png"))
         == "httpexamplecom_apng"
  {
    var m := Manager(None, ["/var/cache"]);
    CompleteUrlExample();
    CompleteUrlUsedVerbatim(m, "http://example.com/a.png");
    SanitisedUrlExample();
  }

  /**
   After a download that is saved, loading the same string again is a hit: the completion gets
   the same path, no request is sent, and the saved bytes are what the path holds.
   */
  lemma LoadAfterSavedDownloadHits(m: Manager, cache: Cache, imageURL: string, bytes: Bytes, now: int,
                                   fetch: FetchOutcome, later: int, writeSucceeds: bool)
    requires CacheDirectory(m).Some?
    requires !FileExistsInCache(m, cache, ResourceName(m, imageURL))
    ensures var first := LoadImage(m, cache, imageURL, Data(bytes), now, true);
      && first.completion.InvokedPath?
      && first.cache[CacheKey(m, ResourceName(m, imageURL))].data == bytes
      && LoadImage(m, first.cache, imageURL, fetch, later, writeSucceeds) == LoadResult(first.cache, first.completion, false)
  {
  }

  /**
   A download that brings no data, or never calls back, changes nothing: the completion is never
   called, and the next load of the same string misses again and sends a new request.
   */
  lemma FailedDownloadIsRetried(m: Manager, cache: Cache, imageURL: string, fetch: FetchOutcome, now: int,
                                writeSucceeds: bool, retry: FetchOutcome, later: int)
    requires fetch == NoData || fetch == NoCallback
    requires !FileExistsInCache(m, cache, ResourceName(m, imageURL))
    requires retry != NoRequest
    ensures var first := LoadImage(m, cache, imageURL, fetch, now, writeSucceeds);
      && first == LoadResult(cache, NotInvoked, true)
      && LoadImage(m, first.cache, imageURL, retry, later, writeSucceeds).requestSent
  {
  }

  /** A response with a status other than 200 never reaches the completion and writes nothing. */
  lemma NonOkStatusNeverCompletes(m: Manager, cache: Cache, imageURL: string, status: int, body: Option<Bytes>,
                                  now: int, writeSucceeds: bool)
    requires status != 200
    requires !FileExistsInCache(m, cache, ResourceName(m, imageURL))
    ensures LoadImage(m, cache, imageURL, FetchOutcomeOf(HttpResponse(status, body)), now, writeSucceeds)
         == LoadResult(cache, NotInvoked, true)
  {
  }

  /** After `clearCache` every load misses and sends its request, when one can be built. */
  lemma ClearThenMiss(m: Manager, cache: Cache, imageURL: string, fetch: FetchOutcome, now: int, writeSucceeds: bool)
    requires CacheDirectory(m).Some?
    requires fetch != NoRequest
    ensures !FileExistsInCache(m, ClearCache(m, cache), ResourceName(m, imageURL))
    ensures LoadImage(m, ClearCache(m, cache), imageURL, fetch, now, writeSucceeds).requestSent
  {
  }

  /**
   Without a platform cache directory nothing is ever found, saved or cleared, and the
   completion is never called, whatever the download brings.
   */
  lemma NoCacheDirectoryNeverCompletes(m: Manager, cache: Cache, imageURL: string, fetch: FetchOutcome, now: int,
                                       writeSucceeds: bool)
    requires m.searchPaths == []
    ensures !FileExistsInCache(m, cache, ResourceName(m, imageURL))
    ensures LoadImage(m, cache, imageURL, fetch, now, writeSucceeds).completion == NotInvoked
    ensures LoadImage(m, cache, imageURL, fetch, now, writeSucceeds).cache == cache
    ensures ClearCache(m, cache) == cache
  {
  }

  /** With no configured expiry, start-up keeps a file that is exactly three days old and drops an older one. */
  lemma StartUpKeepsThreeDays(m: Manager, cache: Cache, name: string)
    requires CacheDirectory(m).Some?
    requires name in cache
    ensures name in StartUp(m, cache, cache[name].created + 259200, None, NoFaults)
    ensures name !in StartUp(m, cache, cache[name].created + 259201, None, NoFaults)
  {
    Constants.DefaultExpiryIsThreeDays();
  }

  /**
   Two strings that share a cache key share a cache entry: once the first is downloaded and
   saved, loading the second is a hit on the first one's bytes and sends no request.
   */
  lemma SharedKeyServesOtherImage(m: Manager, cache: Cache, first: string, second: string, bytes: Bytes, now: int,
                                  fetch: FetchOutcome, later: int, writeSucceeds: bool)
    requires CacheDirectory(m).Some?
    requires CacheKey(m, ResourceName(m, first)) == CacheKey(m, ResourceName(m, second))
    requires !FileExistsInCache(m, cache, ResourceName(m, first))
    ensures var saved := LoadImage(m, cache, first, Data(bytes), now, true);
      var loaded := LoadImage(m, saved.cache, second, fetch, later, writeSucceeds);
      && loaded.completion.InvokedPath?
      && !loaded.requestSent
      && loaded.cache[CacheKey(m, ResourceName(m, second))].data == bytes
  {
  }

  /** Without a base address, `a.png` and `apng` share the key `apng`: keys are not unique. */
  lemma DotCollisionKeys(m: Manager, first: string, second: string)
    requires m.baseAddress.None?
    requires first == "a.png" && second == "apng"
    ensures CacheKey(m, ResourceName(m, first)) == "apng"
    ensures CacheKey(m, ResourceName(m, second)) == "apng"
  {
    NotStartingWithLowercaseHIsRelative(first);
    NotStartingWithLowercaseHIsRelative(second);
    assert IsTrimmed(first) by {
      assert first[0] == 'a' && first[|first| - 1] == 'g';
    }
    assert IsTrimmed(second) by {
      assert second[0] == 'a' && second[|second| - 1] == 'g';
    }
    TrimOfTrimmed(first);
    TrimOfTrimmed(second);
    SanitisedDotCollision();
  }
}

=== FILE: text.dfy ===
/**
 This module holds the Foundation string operations the cache relies on, restricted to
 ASCII: whitespace trimming, lower-casing, substring search and `replacingOccurrences`.
 */
module Text {
  import opened Wrappers

  /** The ASCII members of Foundation's `whitespacesAndNewlines`: tab, LF, VT, FF, CR and space. */
  predicate IsSpace(c: char) {
    c == ' ' || '\t' <= c <= '\r'
  }

  predicate AllSpace(s: string) {
    forall i :: 0 <= i < |s| ==> IsSpace(s[i])
  }

  /** True when `s` neither starts nor ends with whitespace. */
  predicate IsTrimmed(s: string) {
    s != [] ==> !IsSpace(s[0]) && !IsSpace(s[|s| - 1])
  }

  /** Drops leading whitespace: the result is the suffix of `s` that follows the longest all-space prefix. */
  function TrimStart(s: string): (r: string)
    ensures |r| <= |s| && r == s[|s| - |r|..]
    ensures AllSpace(s[..|s| - |r|])
    ensures r != [] ==> !IsSpace(r[0])
    decreases |s|
  {
    if s != [] && IsSpace(s[0]) then
      var tail := s[1..];
      var r := TrimStart(tail);
      assert r == s[|s| - |r|..] by {
        assert tail[|tail| - |r|..] == s[|s| - |r|..];
      }
      var dropped := s[..|s| - |r|];
      assert AllSpace(dropped) by {
        forall i | 0 <= i < |dropped|
          ensures IsSpace(dropped[i])
        {
          if i > 0 {
            assert dropped[i] == tail[..|tail| - |r|][i - 1];
          }
        }
      }
      r
    else
      s
  }

  /** Drops trailing whitespace: the result is the prefix of `s` before the longest all-space suffix. */
  function TrimEnd(s: string): (r: string)
    ensures |r| <= |s| && r == s[..|r|]
    ensures AllSpace(s[|r|..])
    ensures r != [] ==> !IsSpace(r[|r| - 1])
    decreases |s|
  {
    if s != [] && IsSpace(s[|s| - 1]) then
      var init := s[..|s| - 1];
      var r := TrimEnd(init);
      assert r == s[..|r|] by {
        assert init[..|r|] == s[..|r|];
      }
      var dropped := s[|r|..];
      assert AllSpace(dropped) by {
        forall i | 0 <= i < |dropped|
          ensures IsSpace(dropped[i])
        {
          if i < |dropped| - 1 {
            assert dropped[i] == init[|r|..][i];
          }
        }
      }
      r
    else
      s
  }

  /** Number of leading whitespace characters `Trim` removes. */
  function TrimOffset(s: string): (n: nat)
    ensures n <= |s|
  {
    |s| - |TrimStart(s)|
  }

  /**
   `trimmingCharacters(in: .whitespacesAndNewlines)`: `s` splits into an all-space prefix,
   the result, and an all-space suffix, and the result is itself trimmed.
   */
  function Trim(s: string): (r: string)
    ensures TrimOffset(s) + |r| <= |s|
    ensures r == s[TrimOffset(s)..TrimOffset(s) + |r|]
    ensures AllSpace(s[..TrimOffset(s)]) && AllSpace(s[TrimOffset(s) + |r|..])
    ensures IsTrimmed(r)
  {
    var t := TrimStart(s);
    var n := |s| - |t|;
    assert t == s[n..];
    var r := TrimEnd(t);
    assert r == s[n..n + |r|] by {
      assert t[..|r|] == s[n..n + |r|];
    }
    assert t[|r|..] == s[n + |r|..];
    assert r != [] ==> r[0] == t[0];
    r
  }

  lemma {:induction false} TrimStartOfSpacesThen(p: string, u: string)
    requires AllSpace(p)
    requires u == [] || !IsSpace(u[0])
    ensures TrimStart(p + u) == u
    decreases |p|
  {
    if p == [] {
      assert p + u == u;
    } else {
      assert (p + u)[1..] == p[1..] + u;
      TrimStartOfSpacesThen(p[1..], u);
    }
  }

  lemma {:induction false} TrimEndThenSpaces(u: string, q: string)
    requires AllSpace(q)
    requires u == [] || !IsSpace(u[|u| - 1])
    ensures TrimEnd(u + q) == u
    decreases |q|
  {
    if q == [] {
      assert u + q == u;
    } else {
      assert (u + q)[..|u + q| - 1] == u + q[..|q| - 1];
      TrimEndThenSpaces(u, q[..|q| - 1]);
    }
  }

  /**
   Uniqueness of trimming: whenever `s` is a trimmed core `r` wrapped in whitespace,
   `Trim(s)` is that core. Together with the ensures of `Trim` this pins `Trim` down exactly.
   */
  lemma TrimUnique(p: string, r: string, q: string)
    requires AllSpace(p) && AllSpace(q) && IsTrimmed(r)
    ensures Trim(p + r + q) == r
  {
    if r == [] {
      assert p + r + q == p + q;
      assert AllSpace(p + q);
      TrimStartOfSpacesThen(p + q, []);
      assert p + q + [] == p + q;
    } else {
      assert p + r + q == p + (r + q);
      TrimStartOfSpacesThen(p, r + q);
      TrimEndThenSpaces(r, q);
    }
  }

  /** Trimming twice is trimming once. */
  lemma TrimIdempotent(s: string)
    ensures Trim(Trim(s)) == Trim(s)
  {
    var r := Trim(s);
    assert [] + r + [] == r;
    TrimUnique([], r, []);
  }

  /** A string with no whitespace at either end is its own trimmed form. */
  lemma TrimOfTrimmed(s: string)
    requires IsTrimmed(s)
    ensures Trim(s) == s
  {
    assert [] + s + [] == s;
    TrimUnique([], s, []);
  }

  predicate IsUpper(c: char) {
    'A' <= c <= 'Z'
  }

  /** ASCII `lowercased()` of one character. */
  function LowerChar(c: char): (r: char)
    ensures !IsUpper(r)
    ensures !IsUpper(c) ==> r == c
    ensures IsUpper(c) ==> r as int == c as int + 32
  {
    if IsUpper(c) then (c as int + 32) as char else c
  }

  /** ASCII `lowercased()`: the same length, no upper-case letter left, every other character kept. */
  function Lower(s: string): (r: string)
    ensures |r| == |s|
    ensures forall i :: 0 <= i < |r| ==> !IsUpper(r[i])
    ensures forall i :: 0 <= i < |s| && !IsUpper(s[i]) ==> r[i] == s[i]
    ensures forall i :: 0 <= i < |s| && IsUpper(s[i]) ==> r[i] as int == s[i] as int + 32
  {
    seq(|s|, i requires 0 <= i < |s| => LowerChar(s[i]))
  }

  /** Lower-casing works character by character, so it distributes over concatenation. */
  lemma LowerAppend(a: string, b: string)
    ensures Lower(a + b) == Lower(a) + Lower(b)
  {
    assert forall i :: 0 <= i < |a| ==> (a + b)[i] == a[i];
    assert forall i :: |a| <= i < |a| + |b| ==> (a + b)[i] == b[i - |a|];
  }

  /** A string without upper-case letters is its own lower-case form. */
  lemma LowerOfLowercase(s: string)
    requires forall i :: 0 <= i < |s| ==> !IsUpper(s[i])
    ensures Lower(s) == s
  {
  }

  /** `needle` occurs in `hay` starting at index `i`. */
  predicate OccursAt(hay: string, needle: string, i: int) {
    0 <= i && i + |needle| <= |hay| && hay[i..i + |needle|] == needle
  }

  /** The first index at or after `from` where `needle` occurs in `hay`, if any. */
  function FindFrom(hay: string, needle: string, from: nat): (r: Option<nat>)
    ensures r.Some? ==> from <= r.value && OccursAt(hay, needle, r.value)
    ensures r.Some? ==> forall i :: from <= i < r.value ==> !OccursAt(hay, needle, i)
    ensures r.None? ==> forall i :: from <= i ==> !OccursAt(hay, needle, i)
    decreases |hay| - from
  {
    if from + |needle| > |hay| then None
    else if OccursAt(hay, needle, from) then Some(from)
    else FindFrom(hay, needle, from + 1)
  }

  /**
   Foundation's `range(of:)`: the first occurrence of `needle` in `hay`. An empty `needle`
   is never found, as with Foundation.
   */
  function RangeOf(hay: string, needle: string): (r: Option<nat>)
    ensures r.Some? <==> needle != [] && exists i :: OccursAt(hay, needle, i)
    ensures r.Some? ==> OccursAt(hay, needle, r.value)
    ensures r.Some? ==> forall i :: 0 <= i < r.value ==> !OccursAt(hay, needle, i)
  {
    if needle == [] then None else FindFrom(hay, needle, 0)
  }

  /**
   Foundation's `replacingOccurrences(of:with:)`: scanning left to right, every non-overlapping
   occurrence of `target` is replaced by `replacement`. An empty target changes nothing.
   */
  function ReplacingOccurrences(s: string, target: string, replacement: string): (r: string)
    ensures target == [] ==> r == s
    ensures |replacement| <= |target| ==> |r| <= |s|
    decreases |s|
  {
    if target == [] || s == [] then s
    else if target <= s then
      replacement + ReplacingOccurrences(s[|target|..], target, replacement)
    else
      [s[0]] + ReplacingOccurrences(s[1..], target, replacement)
  }

  /** A string in which the target cannot start anywhere is left unchanged. */
  lemma {:induction false} ReplaceWithoutTargetHead(s: string, target: string, replacement: string)
    requires target != [] && target[0] !in s
    ensures ReplacingOccurrences(s, target, replacement) == s
    decreases |s|
  {
    if s != [] {
      assert !(target <= s) by { assert s[0] != target[0]; }
      assert target[0] !in s[1..];
      ReplaceWithoutTargetHead(s[1..], target, replacement);
    }
  }

  /** Every character of the result comes from the input or from the replacement. */
  lemma {:induction false} ReplaceCharsFrom(s: string, target: string, replacement: string, c: char)
    requires c in ReplacingOccurrences(s, target, replacement)
    ensures c in s || c in replacement
    decreases |s|
  {
    if target != [] && s != [] {
      if target <= s {
        if c !in replacement {
          ReplaceCharsFrom(s[|target|..], target, replacement, c);
        }
      } else if c != s[0] {
        ReplaceCharsFrom(s[1..], target, replacement, c);
      }
    }
  }

  /** Replacing a one-character target by text without it removes that character entirely. */
  lemma {:induction false} ReplaceRemovesChar(s: string, c: char, replacement: string)
    requires c !in replacement
    ensures c !in ReplacingOccurrences(s, [c], replacement)
    decreases |s|
  {
    if s != [] {
      if [c] <= s {
        ReplaceRemovesChar(s[1..], c, replacement);
      } else {
        assert s[0] != c by { assert s[..1] == [s[0]]; }
        ReplaceRemovesChar(s[1..], c, replacement);
      }
    }
  }

  /** Removing a doubled character keeps the first character unless it starts an occurrence. */
  lemma FirstOfDoubledRemoval(s: string, c: char)
    requires ReplacingOccurrences(s, [c, c], []) != []
    ensures s != []
    ensures s[0] != c ==> ReplacingOccurrences(s, [c, c], [])[0] == s[0]
    ensures ReplacingOccurrences(s, [c, c], [])[0] == c ==> s[0] == c
  {
    if s != [] && s[0] != c {
      assert !([c, c] <= s) by {
        if |s| >= 2 {
          assert s[..2][0] == s[0];
        }
      }
    }
  }

  /**
   Removing every occurrence of a doubled character, scanning left to right, leaves no
   occurrence behind: a character that is kept is never followed by another copy of itself.
   */
  lemma {:induction false} RemovingDoubledCharLeavesNone(s: string, c: char)
    ensures forall i :: !OccursAt(ReplacingOccurrences(s, [c, c], []), [c, c], i)
    decreases |s|
  {
    var target := [c, c];
    if s != [] {
      if target <= s {
        RemovingDoubledCharLeavesNone(s[2..], c);
        assert ReplacingOccurrences(s, target, []) == ReplacingOccurrences(s[2..], target, []);
      } else {
        var rest := ReplacingOccurrences(s[1..], target, []);
        RemovingDoubledCharLeavesNone(s[1..], c);
        var r := [s[0]] + rest;
        assert ReplacingOccurrences(s, target, []) == r;
        forall i
          ensures !OccursAt(r, target, i)
        {
          if 1 <= i && i + 2 <= |r| {
            assert r[i..i + 2] == rest[i - 1..i + 1];
            assert !OccursAt(rest, target, i - 1);
          } else if i == 0 && 2 <= |r| {
            FirstOfDoubledRemoval(s[1..], c);
            if s[0] == c {
              assert |s| >= 2 && s[1] != c by {
                assert s[..2] != target;
                assert s[..2] == [s[0], s[1]];
              }
              assert rest[0] != c;
            }
            assert r[0..2] == [s[0], rest[0]];
          }
        }
      }
    }
  }

  /** With a one-character target, the first character is rewritten on its own and the scan moves on. */
  lemma ReplaceCharCons(x: char, t: string, c: char, rep: string)
    ensures ReplacingOccurrences([x] + t, [c], rep)
            == (if x == c then rep else [x]) + ReplacingOccurrences(t, [c], rep)
  {
    var s := [x] + t;
    assert s[1..] == t;
    assert s[..1] == [x];
    assert s[0] == x;
    if x == c {
      assert [c] <= s;
    } else {
      assert s[..1] != [c];
      assert !([c] <= s);
    }
  }

  /** With a one-character target, replacing distributes over concatenation. */
  lemma {:induction false} ReplaceCharAppend(a: string, b: string, c: char, rep: string)
    ensures ReplacingOccurrences(a + b, [c], rep)
            == ReplacingOccurrences(a, [c], rep) + ReplacingOccurrences(b, [c], rep)
    decreases |a|
  {
    if a == [] {
      assert a + b == b;
    } else {
      var head := if a[0] == c then rep else [a[0]];
      calc {
        ReplacingOccurrences(a + b, [c], rep);
        { assert a + b == [a[0]] + (a[1..] + b); ReplaceCharCons(a[0], a[1..] + b, c, rep); }
        head + ReplacingOccurrences(a[1..] + b, [c], rep);
        { ReplaceCharAppend(a[1..], b, c, rep); }
        head + (ReplacingOccurrences(a[1..], [c], rep) + ReplacingOccurrences(b, [c], rep));
        (head + ReplacingOccurrences(a[1..], [c], rep)) + ReplacingOccurrences(b, [c], rep);
        { assert a == [a[0]] + a[1..]; ReplaceCharCons(a[0], a[1..], c, rep); }
        ReplacingOccurrences(a, [c], rep) + ReplacingOccurrences(b, [c], rep);
      }
    }
  }

  /** A prefix that does not contain the target's first character is copied through unchanged. */
  lemma {:induction false} ReplaceAfterTargetFreePrefix(a: string, b: string, target: string, replacement: string)
    requires target != [] && target[0] !in a
    ensures ReplacingOccurrences(a + b, target, replacement) == a + ReplacingOccurrences(b, target, replacement)
    decreases |a|
  {
    if a == [] {
      assert a + b == b;
    } else {
      assert (a + b)[0] == a[0];
      assert !(target <= a + b);
      assert (a + b)[1..] == a[1..] + b;
      ReplaceAfterTargetFreePrefix(a[1..], b, target, replacement);
    }
  }
}

=== FILE: url_grammar.dfy ===
/**
 The "complete URL" test of the image cache. The cache classifies a caller's string with the
 regular expression

     (http|https)://((\w)*|([0-9]*)|([-|_])*)+([\.|/]((\w)*|([0-9]*)|([-|_])*))+

 matched against the WHOLE string (`NSPredicate` with `MATCHES`). `\w` is read as ASCII
 `[A-Za-z0-9_]`. Inside the brackets `|` is a literal character, so `[-|_]` is `-`, `|` or `_`
 and `[\.|/]` is `.`, `|` or `/`.

 `MatchesUrlRegex` follows the shape of the expression; `IsCompleteUrl` is the flat
 character-class test the model uses; `IsCompleteUrlMatchesRegex` proves them equal.
 */
module UrlGrammar {
  import opened Wrappers
  import opened Text

  /** ASCII reading of `\w`. */
  predicate IsWordChar(c: char) {
    'a' <= c <= 'z' || 'A' <= c <= 'Z' || '0' <= c <= '9' || c == '_'
  }

  /** A character one iteration of `((\w)*|([0-9]*)|([-|_])*)` can consume. */
  predicate IsSegmentChar(c: char) {
    IsWordChar(c) || c == '-' || c == '|'
  }

  /** The class `[\.|/]` that opens every group of the path part. */
  predicate IsSeparator(c: char) {
    c == '.' || c == '|' || c == '/'
  }

  /** Every character that may appear after `://` in a complete URL. */
  predicate IsUrlChar(c: char) {
    IsSegmentChar(c) || IsSeparator(c)
  }

  /**
   The language of `((\w)*|([0-9]*)|([-|_])*)+`: each iteration matches a run of one class,
   and a run may be empty, so any string of segment characters (the empty one included) matches.
   */
  ghost predicate Segment(t: string) {
    forall i :: 0 <= i < |t| ==> IsSegmentChar(t[i])
  }

  /** The language of `([\.|/]SEGMENT)+`: a separator, a segment, then optionally more groups. */
  ghost predicate Groups(t: string)
    decreases |t|
  {
    && |t| > 0
    && IsSeparator(t[0])
    && exists k :: 1 <= k <= |t| && Segment(t[1..k]) && (k == |t| || Groups(t[k..]))
  }

  /** What must follow `://`: a segment, then one or more groups. */
  ghost predicate HostAndPath(t: string) {
    exists k :: 0 <= k <= |t| && Segment(t[..k]) && Groups(t[k..])
  }

  /** Full-string match of the regular expression, following its structure. */
  ghost predicate MatchesUrlRegex(s: string) {
    || (|s| >= 7 && s[..7] == "http://" && HostAndPath(s[7..]))
    || (|s| >= 8 && s[..8] == "https://" && HostAndPath(s[8..]))
  }

  /** The text after a leading `http://` or `https://`, or None when neither prefix is there. */
  function AfterScheme(s: string): (r: Option<string>)
    ensures r.Some? <==> (|s| >= 7 && s[..7] == "http://") || (|s| >= 8 && s[..8] == "https://")
    ensures r.Some? ==> s == (if s[4] == ':' then "http://" else "https://") + r.value
  {
    if |s| >= 7 && s[..7] == "http://" then Some(s[7..])
    else if |s| >= 8 && s[..8] == "https://" then Some(s[8..])
    else None
  }

  /** `String.isCompleteURL()`: the flat reading of the full-string regular-expression match. */
  predicate IsCompleteUrl(s: string) {
    && AfterScheme(s).Some?
    && (forall i :: 0 <= i < |AfterScheme(s).value| ==> IsUrlChar(AfterScheme(s).value[i]))
    && (exists i :: 0 <= i < |AfterScheme(s).value| && IsSeparator(AfterScheme(s).value[i]))
  }

  /** The index of the first separator in `t` at or after `from`, or `|t|` when there is none. */
  function NextSeparator(t: string, from: nat): (r: nat)
    requires from <= |t|
    ensures from <= r <= |t|
    ensures forall i :: from <= i < r ==> !IsSeparator(t[i])
    ensures r < |t| ==> IsSeparator(t[r])
    decreases |t| - from
  {
    if from == |t| then from
    else if IsSeparator(t[from]) then from
    else NextSeparator(t, from + 1)
  }

  /** Whatever the groups of the path part match consists of URL characters and starts with a separator. */
  lemma {:induction false} GroupsAreUrlChars(t: string)
    requires Groups(t)
    ensures forall i :: 0 <= i < |t| ==> IsUrlChar(t[i])
    decreases |t|
  {
    var k :| 1 <= k <= |t| && Segment(t[1..k]) && (k == |t| || Groups(t[k..]));
    if k < |t| {
      GroupsAreUrlChars(t[k..]);
    }
    forall i | 0 <= i < |t|
      ensures IsUrlChar(t[i])
    {
      if i == 0 {
      } else if i < k {
        assert t[i] == t[1..k][i - 1];
      } else {
        assert t[i] == t[k..][i - k];
      }
    }
  }

  /** Conversely, a string of URL characters that starts with a separator is matched by the groups. */
  lemma {:induction false} UrlCharsAreGroups(t: string)
    requires |t| > 0 && IsSeparator(t[0])
    requires forall i :: 0 <= i < |t| ==> IsUrlChar(t[i])
    ensures Groups(t)
    decreases |t|
  {
    var k := NextSeparator(t, 1);
    assert Segment(t[1..k]) by {
      forall i | 0 <= i < k - 1
        ensures IsSegmentChar(t[1..k][i])
      {
        assert t[1..k][i] == t[i + 1];
      }
    }
    if k < |t| {
      forall i | 0 <= i < |t[k..]|
        ensures IsUrlChar(t[k..][i])
      {
        assert t[k..][i] == t[k + i];
      }
      UrlCharsAreGroups(t[k..]);
    }
  }

  /** The part after `://` matches iff it is made of URL characters and contains a separator. */
  lemma HostAndPathIsFlat(t: string)
    ensures HostAndPath(t) <==>
            (forall i :: 0 <= i < |t| ==> IsUrlChar(t[i])) && (exists i :: 0 <= i < |t| && IsSeparator(t[i]))
  {
    if HostAndPath(t) {
      var k :| 0 <= k <= |t| && Segment(t[..k]) && Groups(t[k..]);
      GroupsAreUrlChars(t[k..]);
      assert IsSeparator(t[k..][0]);
      assert IsSeparator(t[k]);
      forall i | 0 <= i < |t|
        ensures IsUrlChar(t[i])
      {
        if i < k {
          assert t[i] == t[..k][i];
        } else {
          assert t[i] == t[k..][i - k];
        }
      }
    }
    if (forall i :: 0 <= i < |t| ==> IsUrlChar(t[i])) && (exists i :: 0 <= i < |t| && IsSeparator(t[i])) {
      var k := NextSeparator(t, 0);
      assert k < |t|;
      assert Segment(t[..k]) by {
        forall i | 0 <= i < k
          ensures IsSegmentChar(t[..k][i])
        {
          assert t[..k][i] == t[i];
        }
      }
      forall i | 0 <= i < |t[k..]|
        ensures IsUrlChar(t[k..][i])
      {
        assert t[k..][i] == t[k + i];
      }
      UrlCharsAreGroups(t[k..]);
    }
  }

  /** The flat test and the structural reading of the regular expression agree on every string. */
  lemma IsCompleteUrlMatchesRegex(s: string)
    ensures IsCompleteUrl(s) <==> MatchesUrlRegex(s)
  {
    if |s| >= 7 && s[..7] == "http://" {
      HostAndPathIsFlat(s[7..]);
      assert !(|s| >= 8 && s[..8] == "https://") by {
        assert s[4] == s[..7][4];
      }
    } else if |s| >= 8 && s[..8] == "https://" {
      HostAndPathIsFlat(s[8..]);
    }
  }

  /**
   What a complete URL looks like: the exact lower-case scheme `http://` or `https://`, then only
   word characters and `- _ | . /` (so no `?`, `=`, `%`, `&`, `:` or space), at least one of which
   is `.`, `|` or `/`.
   */
  lemma CompleteUrlShape(s: string)
    requires IsCompleteUrl(s)
    ensures (|s| >= 7 && s[..7] == "http://") || (|s| >= 8 && s[..8] == "https://")
    ensures var n := if s[4] == ':' then 7 else 8;
            && |s| > n
            && (forall i :: n <= i < |s| ==> IsUrlChar(s[i]))
            && (exists i :: n <= i < |s| && IsSeparator(s[i]))
  {
    var rest := AfterScheme(s).value;
    var n := if s[4] == ':' then 7 else 8;
    if |s| >= 7 && s[..7] == "http://" {
      assert s[4] == s[..7][4];
    } else {
      assert s[4] == s[..8][4];
    }
    assert rest == s[n..];
    forall i | n <= i < |s|
      ensures IsUrlChar(s[i])
    {
      assert s[i] == rest[i - n];
    }
    var j :| 0 <= j < |rest| && IsSeparator(rest[j]);
    assert s[n + j] == rest[j];
  }

  /** A complete URL contains no whitespace, so trimming leaves it unchanged. */
  lemma CompleteUrlHasNoSpace(s: string)
    requires IsCompleteUrl(s)
    ensures forall i :: 0 <= i < |s| ==> !IsSpace(s[i])
  {
    CompleteUrlShape(s);
    var n := if s[4] == ':' then 7 else 8;
    forall i | 0 <= i < |s|
      ensures !IsSpace(s[i])
    {
      if i < 7 {
        assert s[i] == s[..7][i];
      } else if i < n {
        assert s[i] == s[..8][i];
      }
    }
  }

  /** An absolute URL with a dotted host and a path is complete. */
  lemma CompleteUrlExample()
    ensures IsCompleteUrl("http://example.com/a.png")
  {
    var rest := "example.com/a.png";
    assert AfterScheme("http://example.com/a.png") == Some(rest);
    forall i | 0 <= i < |rest|
      ensures IsUrlChar(rest[i])
    {
      assert rest[i] in "examplecom/apng.";
    }
    assert IsSeparator(rest[7]);
  }

  /**
   Only the exact lower-case schemes count: a string that does not start with `h` (an upper-case
   `HTTP`, another scheme, a leading space, a relative path) is never complete.
   */
  lemma NotStartingWithLowercaseHIsRelative(s: string)
    requires s == [] || s[0] != 'h'
    ensures !IsCompleteUrl(s)
  {
    if |s| >= 7 {
      assert s[..7][0] == s[0];
    }
    if |s| >= 8 {
      assert s[..8][0] == s[0];
    }
  }

  lemma SchemeExamples()
    ensures !IsCompleteUrl("HTTP://example.com/a.png")
    ensures !IsCompleteUrl("ftp://example.com/a.png")
    ensures !IsCompleteUrl(" http://example.com/a.png")
    ensures !IsCompleteUrl("icons/logo.png")
  {
    NotStartingWithLowercaseHIsRelative("HTTP://example.com/a.png");
    NotStartingWithLowercaseHIsRelative("ftp://example.com/a.png");
    NotStartingWithLowercaseHIsRelative(" http://example.com/a.png");
    NotStartingWithLowercaseHIsRelative("icons/logo.png");
  }

  /** A host with neither a dot nor a path has no separator after `://`. */
  lemma NoSeparatorExample()
    ensures !IsCompleteUrl("http://localhost")
  {
    assert AfterScheme("http://localhost") == Some("localhost");
  }

  /**
   A port puts a `:` after `://`, outside the grammar. The string is a parameter fixed by the
   requires, so that the verifier does not unfold the grammar along the literal.
   */
  lemma PortExample(s: string)
    requires s == "http://example.com:8080/a.png"
    ensures !IsCompleteUrl(s)
  {
    assert s == "http://" + s[7..];
    assert s[7..][11] == ':';
    ForeignCharExample(s, s[7..], 11);
  }

  /**
   A query string puts a `?` after `://`, outside the grammar. The string is a parameter fixed by
   the requires, so that the verifier does not unfold the grammar along the literal.
   */
  lemma QueryExample(s: string)
    requires s == "http://example.com/a.png?v=2"
    ensures !IsCompleteUrl(s)
  {
    assert s == "http://" + s[7..];
    assert s[7..][17] == '?';
    ForeignCharExample(s, s[7..], 17);
  }

  lemma ForeignCharExample(s: string, rest: string, i: nat)
    requires s == "http://" + rest
    requires i < |rest| && (rest[i] == ':' || rest[i] == '?')
    ensures !IsCompleteUrl(s)
  {
    HttpSchemeSplits(s, rest);
  }

  /** The text after `http://` is what `AfterScheme` returns. */
  lemma HttpSchemeSplits(s: string, rest: string)
    requires s == "http://" + rest
    ensures AfterScheme(s) == Some(rest)
  {
    assert s[..7] == "http://";
  }
}

=== FILE: utilities.dfy ===
/**
 The `String` extension the cache uses for paths and cache keys. Foundation's `URL` path
 operations are modelled as operations on `/`-separated strings.
 */
module Utilities {
  import opened Wrappers
  import opened Text

  type Path = string

  /** A directory path the path operations treat as a plain prefix: non-empty, no trailing `/`. */
  predicate IsDirectoryPath(d: Path) {
    d != [] && d[|d| - 1] != '/'
  }

  /**
   `fileNameWithExtn()`, the URL's last path component: the longest suffix of `p` without a `/`.
   */
  function FileNameWithExtn(p: Path): (r: string)
    ensures '/' !in r
    ensures |r| <= |p| && r == p[|p| - |r|..]
    ensures |r| < |p| ==> p[|p| - |r| - 1] == '/'
    decreases |p|
  {
    if p == [] then []
    else if p[|p| - 1] == '/' then []
    else
      var init := p[..|p| - 1];
      var name := FileNameWithExtn(init);
      assert init[|init| - |name|..] == p[|p| - 1 - |name|..|p| - 1];
      assert p[|p| - 1 - |name|..|p| - 1] + [p[|p| - 1]] == p[|p| - 1 - |name|..];
      name + [p[|p| - 1]]
  }

  /** `addPathComponent(_:)`: joins a directory and a component with exactly one `/`. */
  function AddPathComponent(dir: Path, component: string): (r: Path)
    ensures |r| >= |component| && r[|r| - |component|..] == component
    ensures IsDirectoryPath(dir) ==> r == dir + "/" + component
  {
    if dir != [] && dir[|dir| - 1] == '/' then dir + component else dir + "/" + component
  }

  /**
   `deleteLastPathComponent()`: what is left of `p` before its last `/`; the root `/` when that
   slash is the first character, and the empty path when `p` has no `/`.
   */
  function DeleteLastPathComponent(p: Path): (r: Path)
    ensures '/' !in p ==> r == []
    ensures '/' in p ==> p == r + "/" + FileNameWithExtn(p) || (r == "/" && p == "/" + FileNameWithExtn(p))
    ensures '/' in p && p == "/" + FileNameWithExtn(p) ==> r == "/"
    ensures |r| > 1 ==> p == r + "/" + FileNameWithExtn(p)
  {
    var name := FileNameWithExtn(p);
    if |name| == |p| then
      assert name == p;
      []
    else if |name| + 1 == |p| then
      assert p == [p[0]] + name;
      "/"
    else
      assert p == p[..|p| - |name| - 1] + [p[|p| - |name| - 1]] + name;
      p[..|p| - |name| - 1]
  }

  /** When `p` ends in a `/`-free tail after a `/` (or is that tail), the tail is the last component. */
  lemma {:induction false} FileNameOfSlashThenName(p: Path, k: nat)
    requires k <= |p|
    requires forall i :: k <= i < |p| ==> p[i] != '/'
    requires k > 0 ==> p[k - 1] == '/'
    ensures FileNameWithExtn(p) == p[k..]
    decreases |p|
  {
    if k < |p| {
      var init := p[..|p| - 1];
      FileNameOfSlashThenName(init, k);
      assert init[k..] + [p[|p| - 1]] == p[k..];
    }
  }

  /**
   Appending a component without `/` to a directory and taking the last component, or deleting
   it, gives back the component and the directory.
   */
  lemma AddThenDeleteLastPathComponent(dir: Path, component: string)
    requires IsDirectoryPath(dir)
    requires '/' !in component
    ensures FileNameWithExtn(AddPathComponent(dir, component)) == component
    ensures DeleteLastPathComponent(AddPathComponent(dir, component)) == dir
  {
    var p := AddPathComponent(dir, component);
    var name := FileNameWithExtn(p);
    assert p == dir + "/" + component;
    assert p[|dir|] == '/';
    assert name == component;
    assert p[..|p| - |name| - 1] == dir;
  }

  /** One character of `SanitisedFileName` after `//` is gone: `:` and `.` vanish, `/` becomes `_`. */
  function SanitiseChar(c: char): string {
    if c == ':' || c == '.' then "" else if c == '/' then "_" else [c]
  }

  /** The per-character rewrite `SanitiseChar` applied along a string, order kept. */
  function SanitiseChars(t: string): string {
    if t == [] then [] else SanitiseChar(t[0]) + SanitiseChars(t[1..])
  }

  /**
   `santisedFileName()`: drops every `//`, then every `:`, turns every `/` into `_` and drops
   every `.`, in that order. The result has none of `:`, `/`, `.` and is never longer than the input.
   */
  function SanitisedFileName(s: string): (r: string)
    ensures ':' !in r && '/' !in r && '.' !in r
    ensures |r| <= |s|
  {
    var noDoubleSlash := ReplacingOccurrences(s, "//", "");
    var noColon := ReplacingOccurrences(noDoubleSlash, ":", "");
    var underscored := ReplacingOccurrences(noColon, "/", "_");
    CharPassesRemoveSeparators(noDoubleSlash);
    ReplacingOccurrences(underscored, ".", "")
  }

  /** The `:`, `/` and `.` passes leave none of those three characters behind. */
  lemma CharPassesRemoveSeparators(t: string)
    ensures var r := ReplacingOccurrences(ReplacingOccurrences(ReplacingOccurrences(t, ":", ""), "/", "_"), ".", "");
            ':' !in r && '/' !in r && '.' !in r
  {
    var noColon := ReplacingOccurrences(t, ":", "");
    var underscored := ReplacingOccurrences(noColon, "/", "_");
    var r := ReplacingOccurrences(underscored, ".", "");
    ReplaceRemovesChar(t, ':', "");
    ReplaceRemovesChar(noColon, '/', "_");
    ReplaceRemovesChar(underscored, '.', "");
    if ':' in underscored {
      ReplaceCharsFrom(noColon, "/", "_", ':');
    }
    if ':' in r {
      ReplaceCharsFrom(underscored, ".", "", ':');
    }
    if '/' in r {
      ReplaceCharsFrom(underscored, ".", "", '/');
    }
  }

  /** The three one-character passes of `SanitisedFileName` are the per-character rewrite. */
  lemma {:induction false} CharPassesAreSanitiseChars(t: string)
    ensures ReplacingOccurrences(ReplacingOccurrences(ReplacingOccurrences(t, ":", ""), "/", "_"), ".", "")
            == SanitiseChars(t)
    decreases |t|
  {
    if t != [] {
      var x, rest := t[0], t[1..];
      assert t == [x] + rest;
      ReplaceCharCons(x, rest, ':', "");
      var p1 := if x == ':' then "" else [x];
      var r1 := ReplacingOccurrences(rest, ":", "");
      ReplaceCharAppend(p1, r1, '/', "_");
      var p2 := ReplacingOccurrences(p1, "/", "_");
      var r2 := ReplacingOccurrences(r1, "/", "_");
      ReplaceCharAppend(p2, r2, '.', "");
      CharPassesAreSanitiseChars(rest);
      if x == ':' {
        assert p2 == "";
      } else {
        ReplaceCharCons(x, [], '/', "_");
        assert [x] + [] == [x];
        if x == '/' {
          ReplaceCharCons('_', [], '.', "");
          assert ['_'] + [] == ['_'];
        } else {
          ReplaceCharCons(x, [], '.', "");
        }
      }
    }
  }

  /**
   Reference reading of `SanitisedFileName`: after the `//` pass, every character is rewritten on
   its own (`:` and `.` deleted, `/` to `_`, the rest kept) and the order is preserved.
   */
  lemma SanitisedIsPerCharacter(s: string)
    ensures SanitisedFileName(s) == SanitiseChars(ReplacingOccurrences(s, "//", ""))
  {
    CharPassesAreSanitiseChars(ReplacingOccurrences(s, "//", ""));
  }

  /** Sanitising a sanitised name changes nothing. */
  lemma SanitisedIdempotent(s: string)
    ensures SanitisedFileName(SanitisedFileName(s)) == SanitisedFileName(s)
  {
    var u := SanitisedFileName(s);
    ReplaceWithoutTargetHead(u, "//", "");
    ReplaceWithoutTargetHead(u, ":", "");
    ReplaceWithoutTargetHead(u, "/", "_");
    ReplaceWithoutTargetHead(u, ".", "");
  }

  /** After the first pass of `SanitisedFileName` no `//` is left anywhere in the name. */
  lemma DoubleSlashPassLeavesNone(s: string)
    ensures forall i :: !OccursAt(ReplacingOccurrences(s, "//", ""), "//", i)
  {
    RemovingDoubledCharLeavesNone(s, '/');
  }

  /** The per-character rewrite distributes over concatenation. */
  lemma {:induction false} SanitiseCharsAppend(a: string, b: string)
    ensures SanitiseChars(a + b) == SanitiseChars(a) + SanitiseChars(b)
    decreases |a|
  {
    if a != [] {
      assert (a + b)[0] == a[0];
      assert (a + b)[1..] == a[1..] + b;
      SanitiseCharsAppend(a[1..], b);
    } else {
      assert a + b == b;
    }
  }

  /** A name with none of the characters `SanitisedFileName` rewrites. */
  predicate IsPlainWord(w: string) {
    ':' !in w && '/' !in w && '.' !in w
  }

  /** A word without `:`, `/` or `.` passes the per-character rewrite unchanged. */
  lemma {:induction false} SanitiseCharsOfWord(w: string)
    requires IsPlainWord(w)
    ensures SanitiseChars(w) == w
    decreases |w|
  {
    if w != [] {
      assert w == [w[0]] + w[1..];
      SanitiseCharsOfWord(w[1..]);
    }
  }

  /** A word, one separator character, and the rest: each part is rewritten on its own. */
  lemma SanitiseCharsJoin(w: string, c: char, rest: string)
    requires IsPlainWord(w)
    ensures SanitiseChars(w + ([c] + rest)) == w + (SanitiseChar(c) + SanitiseChars(rest))
  {
    SanitiseCharsAppend(w, [c] + rest);
    SanitiseCharsOfWord(w);
    assert ([c] + rest)[1..] == rest;
  }

  /**
   The `//` pass runs first, so in a URL of the shape `scheme://host.tld/name.ext` the scheme
   separator vanishes instead of becoming `__`: the key is `schemehosttld_nameext`.
   */
  lemma SanitisedUrlShape(scheme: string, host: string, tld: string, name: string, ext: string)
    requires IsPlainWord(scheme) && IsPlainWord(host) && IsPlainWord(tld)
    requires IsPlainWord(name) && IsPlainWord(ext)
    ensures SanitisedFileName(scheme + ("://" + (host + ("." + (tld + ("/" + (name + ("." + ext))))))))
            == scheme + (host + (tld + ("_" + (name + ext))))
  {
    var s := scheme + ("://" + (host + ("." + (tld + ("/" + (name + ("." + ext)))))));
    UrlShapeDoubleSlashPass(scheme, host, tld, name, ext);
    UrlShapeCharPass(scheme, host, tld, name, ext);
    SanitisedIsPerCharacter(s);
  }

  lemma UrlShapeDoubleSlashPass(scheme: string, host: string, tld: string, name: string, ext: string)
    requires IsPlainWord(scheme) && IsPlainWord(host) && IsPlainWord(tld)
    requires IsPlainWord(name) && IsPlainWord(ext)
    ensures ReplacingOccurrences(scheme + ("://" + (host + ("." + (tld + ("/" + (name + ("." + ext))))))), "//", "")
            == scheme + (":" + (host + ("." + (tld + ("/" + (name + ("." + ext)))))))
  {
    var file := name + ("." + ext);
    var domain := host + ("." + tld);
    var path := ['/'] + file;
    UrlShapeRegrouping(scheme, host, tld, name, ext);
    DoubleSlashAfterScheme(scheme + ":", domain, path);
    ReplaceAfterSlash(file);
  }

  /** The two groupings of `scheme://host.tld/name.ext` the `//` pass is reasoned about in. */
  lemma UrlShapeRegrouping(scheme: string, host: string, tld: string, name: string, ext: string)
    ensures scheme + ("://" + (host + ("." + (tld + ("/" + (name + ("." + ext)))))))
            == (scheme + ":") + "//" + (host + ("." + tld)) + (['/'] + (name + ("." + ext)))
    ensures (scheme + ":") + (host + ("." + tld)) + (['/'] + (name + ("." + ext)))
            == scheme + (":" + (host + ("." + (tld + ("/" + (name + ("." + ext)))))))
  {
  }

  lemma UrlShapeCharPass(scheme: string, host: string, tld: string, name: string, ext: string)
    requires IsPlainWord(scheme) && IsPlainWord(host) && IsPlainWord(tld)
    requires IsPlainWord(name) && IsPlainWord(ext)
    ensures SanitiseChars(scheme + (":" + (host + ("." + (tld + ("/" + (name + ("." + ext))))))))
            == scheme + (host + (tld + ("_" + (name + ext))))
  {
    HostCharPass(host, tld, name, ext);
    SchemeCharPass(scheme, host + ("." + (tld + ("/" + (name + ("." + ext))))),
                   host + (tld + ("_" + (name + ext))));
  }

  /** The `:` after a plain scheme is deleted. */
  lemma SchemeCharPass(scheme: string, rest: string, image: string)
    requires IsPlainWord(scheme)
    requires SanitiseChars(rest) == image
    ensures SanitiseChars(scheme + (":" + rest)) == scheme + image
  {
    SanitiseCharsJoin(scheme, ':', rest);
    assert SanitiseChar(':') == [];
    assert [] + image == image;  // the deleted `:` contributes nothing
  }

  lemma HostCharPass(host: string, tld: string, name: string, ext: string)
    requires IsPlainWord(host) && IsPlainWord(tld) && IsPlainWord(name) && IsPlainWord(ext)
    ensures SanitiseChars(host + ("." + (tld + ("/" + (name + ("." + ext))))))
            == host + (tld + ("_" + (name + ext)))
  {
    var rest := tld + ("/" + (name + ("." + ext)));
    var image := tld + ("_" + (name + ext));
    PathCharPass(tld, name, ext);
    SanitiseCharsJoin(host, '.', rest);
    assert SanitiseChar('.') == [];
    assert [] + image == image;  // the deleted `.` contributes nothing
  }

  lemma PathCharPass(tld: string, name: string, ext: string)
    requires IsPlainWord(tld) && IsPlainWord(name) && IsPlainWord(ext)
    ensures SanitiseChars(tld + ("/" + (name + ("." + ext)))) == tld + ("_" + (name + ext))
  {
    var rest := name + ("." + ext);
    DottedNameCharPass(name, ext);
    SanitiseCharsJoin(tld, '/', rest);
    assert SanitiseChar('/') == "_";
  }

  /**
   The key of an absolute URL: `//` is removed before `/` is rewritten, so the scheme separator
   leaves no `_` behind.
   */
  lemma SanitisedUrlExample()
    ensures SanitisedFileName("http://example.com/a.png") == "httpexamplecom_apng"
  {
    UrlExampleByShape("http://example.com/a.png", "http", "example", "com", "a", "png");
  }

  /**
   The example through `SanitisedUrlShape`; the strings are parameters fixed by the requires so
   that the verifier does not unfold the recursive definitions along long literals.
   */
  lemma UrlExampleByShape(url: string, scheme: string, host: string, tld: string, name: string, ext: string)
    requires scheme == "http" && host == "example" && tld == "com" && name == "a" && ext == "png"
    requires url == "http://example.com/a.png"
    ensures SanitisedFileName(url) == "httpexamplecom_apng"
  {
    UrlExampleParts(url, scheme, host, tld, name, ext);
    SanitisedUrlShape(scheme, host, tld, name, ext);
  }

  lemma UrlExampleParts(url: string, scheme: string, host: string, tld: string, name: string, ext: string)
    requires scheme == "http" && host == "example" && tld == "com" && name == "a" && ext == "png"
    requires url == "http://example.com/a.png"
    ensures url == scheme + ("://" + (host + ("." + (tld + ("/" + (name + ("." + ext)))))))
    ensures scheme + (host + (tld + ("_" + (name + ext)))) == "httpexamplecom_apng"
    ensures IsPlainWord(scheme) && IsPlainWord(host) && IsPlainWord(tld)
    ensures IsPlainWord(name) && IsPlainWord(ext)
  {
  }

  /** With no `/` in the scheme or host, the `//` pass only removes the scheme separator. */
  lemma DoubleSlashAfterScheme(scheme: string, host: string, path: string)
    requires '/' !in scheme && '/' !in host
    ensures ReplacingOccurrences(scheme + "//" + host + path, "//", "")
            == scheme + host + ReplacingOccurrences(path, "//", "")
  {
    assert scheme + "//" + host + path == scheme + ("//" + (host + path));
    ReplaceAfterTargetFreePrefix(scheme, "//" + (host + path), "//", "");
    assert ("//" + (host + path))[2..] == host + path;
    ReplaceAfterTargetFreePrefix(host, path, "//", "");
    assert scheme + (host + ReplacingOccurrences(path, "//", ""))
        == scheme + host + ReplacingOccurrences(path, "//", "");
  }

  /** A single `/` followed by a slash-free word survives the `//` pass. */
  lemma ReplaceAfterSlash(w: string)
    requires '/' !in w
    ensures ReplacingOccurrences(['/'] + w, "//", "") == ['/'] + w
  {
    var t := ['/'] + w;
    assert t[1..] == w;
    if |t| >= 2 {
      assert t[..2] != "//" by { assert t[1] == w[0]; }
    }
    ReplaceWithoutTargetHead(w, "//", "");
  }

  /** A name without `:`, `/` or `.` is its own sanitised form. */
  lemma SanitisedOfPlainName(w: string)
    requires IsPlainWord(w)
    ensures SanitisedFileName(w) == w
  {
    ReplaceWithoutTargetHead(w, "//", "");
    SanitisedIsPerCharacter(w);
    SanitiseCharsOfWord(w);
  }

  /** Deleting `.` joins the two sides of a dot. */
  lemma SanitisedOfDottedName(name: string, ext: string)
    requires IsPlainWord(name) && IsPlainWord(ext)
    ensures SanitisedFileName(name + ("." + ext)) == name + ext
  {
    DottedNameDoubleSlashPass(name, ext);
    DottedNameCharPass(name, ext);
    SanitisedIsPerCharacter(name + ("." + ext));
  }

  lemma DottedNameDoubleSlashPass(name: string, ext: string)
    requires IsPlainWord(name) && IsPlainWord(ext)
    ensures ReplacingOccurrences(name + ("." + ext), "//", "") == name + ("." + ext)
  {
    ReplaceWithoutTargetHead(name + ("." + ext), "//", "");
  }

  lemma DottedNameCharPass(name: string, ext: string)
    requires IsPlainWord(name) && IsPlainWord(ext)
    ensures SanitiseChars(name + ("." + ext)) == name + ext
  {
    SanitiseCharsJoin(name, '.', ext);
    SanitiseCharsOfWord(ext);
  }

  /** Sanitising is not injective: deleting `.` merges `a.png` with `apng`. */
  lemma SanitisedDotCollision()
    ensures SanitisedFileName("a.png") == SanitisedFileName("apng") == "apng"
  {
    SanitisedOfDottedName("a", "png");
    assert "a" + ("." + "png") == "a.png";
    SanitisedOfPlainName("apng");
  }

  /** A single `/` between two plain words becomes `_`. */
  lemma SanitisedOfSlashedName(dir: string, name: string)
    requires IsPlainWord(dir) && IsPlainWord(name)
    ensures SanitisedFileName(dir + ("/" + name)) == dir + ("_" + name)
  {
    SlashedNameDoubleSlashPass(dir, name);
    SanitiseCharsJoin(dir, '/', name);
    SanitiseCharsOfWord(name);
    SanitisedIsPerCharacter(dir + ("/" + name));
  }

  lemma SlashedNameDoubleSlashPass(dir: string, name: string)
    requires IsPlainWord(dir) && IsPlainWord(name)
    ensures ReplacingOccurrences(dir + ("/" + name), "//", "") == dir + ("/" + name)
  {
    ReplaceAfterTargetFreePrefix(dir, "/" + name, "//", "");
    ReplaceAfterSlash(name);
  }

  /** Sanitising is not injective: rewriting `/` to `_` merges `a/b` with `a_b`. */
  lemma SanitisedSlashCollision()
    ensures SanitisedFileName("a/b") == SanitisedFileName("a_b") == "a_b"
  {
    SanitisedOfSlashedName("a", "b");
    assert "a" + ("/" + "b") == "a/b";
    assert "a" + ("_" + "b") == "a_b";
    SanitisedOfPlainName("a_b");
  }

  /**
   `isResourceFrom(baseAddress:)`: `baseAddress` occurs in the lower-cased receiver. Only the
   receiver is lower-cased, and an empty base address is never found.
   */
  function IsResourceFrom(s: string, baseAddress: string): (r: bool)
    ensures r <==> baseAddress != [] && exists i :: OccursAt(Lower(s), baseAddress, i)
  {
    RangeOf(Lower(s), baseAddress).Some?
  }

  /** A base address holding an upper-case letter is never found in any name. */
  lemma UppercaseBaseNeverMatches(s: string, baseAddress: string, k: nat)
    requires k < |baseAddress| && IsUpper(baseAddress[k])
    ensures !IsResourceFrom(s, baseAddress)
  {

  }

  /** A name that starts with an all-lower-case, non-empty base address is from that base address. */
  lemma PrefixedByLowercaseBase(baseAddress: string, t: string)
    requires baseAddress != []
    requires Lower(baseAddress) == baseAddress
    ensures IsResourceFrom(baseAddress + t, baseAddress)
  {
    LowerAppend(baseAddress, t);
    assert Lower(baseAddress + t)[0..|baseAddress|] == baseAddress;
    assert OccursAt(Lower(baseAddress + t), baseAddress, 0);
  }
}

=== FILE: wrappers.dfy ===
/** The optional value used wherever the Swift code returns or stores an optional. */
module Wrappers {

  datatype Option<+T> = None | Some(value: T) {

    /** The wrapped value, or `default` when there is none (Swift's `??`). */
    function GetOr(default: T): T {
      match this
      case Some(v) => v
      case None => default
    }
  }
}
